=== FILE: README.md ===
# scrape_gpt core, modelled in Dafny

This project models two parts of `scrape_gpt`, a scraper that turns HTML pages into compact text for a language model.

**The document traversal and extraction of `SelectolaxParser`** (`src/scrape_gpt/parser.py`):

- `conditional_traverse` is the generator at the centre. It walks a node's subtree, or its direct children, and stops at an optional end node. It yields nodes by three tests: an identity ignore list, a tag deny-list and a tag allow-list.
- Built on it: `filtered_traverse`, the text and media traversals, and the `traverse_partial_*` walks.
- Also modelled: the upward `check_parent` walk and the node counters.
- The extractors: `extract_link` and the loops of `get_links` and `get_headings`, `get_text_lens`, the recursive dotted-path labelling of `get_media_paths`, and `handle_text_len`.

**The site-map records** (`src/scrape_gpt/site_map.py`):

- `EntryInfo` records and their `get_llm_dict` attribute filter.
- `SiteMapEntry` objects, whose `children` list grows through `add_child` and `create_child`, and which `get_llm_internal` flattens into `(dotted label, dict)` rows.
- `SiteMap` objects, which derive their URL information (including `page_url_template`) and whose `entries` list grows through `add_entry` and `create_entry`.
- The free helpers: `iter_llm_info`, `get_llm_keys`, `to_key_string`, `to_llm_string` and `format_path`.

Modules:

- `Common`: `Option`, `Result` and the exceptions the code raises as an `Error` datatype. It also holds order-preserving `Filter`, subsequences and `MapSeq`.
- `Strings`: `join`, `split`, `startswith` and `strip`.
- `Dom`: the document tree. A `Node` is a value: an identity, a tag (`"-text"` for text nodes), its own text, attributes and children. A library node object, which can reach its parents, is a `Located`: a node together with its ancestor chain, parent first and root last.
  - `node.traverse()` is the pre-order walk of the subtree. It starts with the node itself.
  - `node.traverse_children()` and `node.iter()` give the direct children.
  - `include_text=False` hides text nodes without pruning anything, since text nodes are leaves.
- `Traversal`: the `conditional_traverse` family, `check_parent` and the counters.
- `Extraction`: links, headings, text lengths, `get_media_paths` and `handle_text_len`.
- `LlmInfo`: the module-level helpers of `site_map.py` and `get_llm_dict`.
- `SiteMaps`: `EntryInfo`, the classes `SiteMapEntry` and `SiteMap`, and the URL derivation.

How the generators and loops are modelled:

- Each generator and list-building loop is a method with the source's loop. It is proved equal to a specification function.
- The source's promises are lemmas about those functions.
- The mutable entry objects are classes.
- `get_llm_internal` recurses over the entry objects. It is proved against a value snapshot of the entry tree (`EntryTree`), which a ghost argument connects to the objects.

Behaviour modelled as the code is written, where it differs from what the names suggest:

- The tag tests of `conditional_traverse` use two independent lists, not one mode flag.
- The `include_self` pre-yield fires only when the start node's tag is one of the *ignored* tags.
- `filtered_traverse` does not pass `ignore_tags` on, so the inner traversal never ignores a tag.
- `traverse_media_nodes` vetoes nodes below a heading whatever `headings_as_text` is.
- `get_media_paths` records the `img`/`svg` children of the current node even when `return_images` is false. Only the recursive results are dropped.
- A child with an empty tag keeps the previous child's label. Using the label before any child has set it raises, which the model returns as `UnboundPath`.
- `handle_text_len` in replace mode raises on a second pass when some entry exceeded `max_len` on the first, because `len()` of an integer raises. When no entry exceeded it, the pass changes nothing. Truncating with a non-negative limit is idempotent; a negative limit keeps cutting, as Python slices do.
- The `include_self` pre-yield does not test `end_node`. When the start node is the end node and is pre-yielded, the end node is yielded, although the loop never yields it.
- With `include_self` and a start tag in the tag list T, the start node is yielded both under `ignore_tags=T` (by the pre-yield) and under `tag_conditions=T` (by the loop). Otherwise the two tag lists split the walked nodes.
- `format_path` always inserts the dot: an entry under an empty `parent_path` gets a label that starts with `.`.
- `create_child` hands the child its parent's own `parent_path`, not the parent's label. All entries of a tree made by `create_child` therefore share one parent path, and their labels are flat: `parent_path + "." + content_label`.
- A `page_url_template` path made only of `/` characters makes the code index an empty list, which raises `IndexError`. The empty-list check there is not joined to the `if`/`else` that follows it.

## Model

| member | source | states |
|---|---|---|
| `Dom.Subtree` | src/scrape_gpt/parser.py:46 | the library walk starts with the start node itself and visits every node of its subtree once (its length is the subtree size) |
| `Dom.ChildrenOf` | src/scrape_gpt/parser.py:44 | the children-only walk yields exactly the direct children, in order, each located under its parent |
| `Dom.ChildInSubtree` | src/scrape_gpt/parser.py:46 | the subtree walk reaches every child of every node it reaches |
| `Dom.SubtreeTextCount` | src/scrape_gpt/parser.py:35-38 | the text nodes of the walk are exactly as many as the text nodes of the tree |
| `Strings.Strip` | src/scrape_gpt/parser.py:151 | the stripped string is no longer than the input and neither starts nor ends with whitespace |
| `Strings.StripInfix` | src/scrape_gpt/parser.py:225 | `strip()` removes only a leading and a trailing run of whitespace and keeps the infix between them unchanged |
| `Traversal.UpTo` | src/scrape_gpt/parser.py:49-51 | the loop's view of the walk is a prefix that contains no visit of `end_node`, and when shorter than the walk it stops exactly at that visit |
| `Traversal.ScanWalk` | src/scrape_gpt/parser.py:49-58 | the loop of `conditional_traverse` yields, in walk order, exactly the nodes of the walk before `end_node` that pass the three tests |
| `Traversal.ConditionalTraverse` | src/scrape_gpt/parser.py:42-58 | `conditional_traverse` yields the optional start node and then the loop part (`Traversal`) |
| `Traversal.LoopStopsAtEnd` | src/scrape_gpt/parser.py:49-51 | the loop output is an order-preserving subsequence of the walk prefix before `end_node`; it never yields `end_node` and stops at its first visit |
| `Traversal.UpToNoEnd` | src/scrape_gpt/parser.py:50 | without an `end_node` the loop sees the whole walk |
| `Traversal.LoopMembership` | src/scrape_gpt/parser.py:53-58 | a walked node before `end_node` is yielded iff it is not an ignored node, its tag is not ignored, and the tag conditions are empty or contain its tag |
| `Traversal.IgnoredNodeKeepsChildren` | src/scrape_gpt/parser.py:53 | ignoring a node suppresses that node only; a child of it that passes the tests is still yielded |
| `Traversal.TagListsPartition` | src/scrape_gpt/parser.py:53-58 | with a non-empty tag list T, the loops of `tag_conditions=T` and `ignore_tags=T` yield disjoint sets covering every walked, non-ignored node; with T empty both loops yield all of them |
| `Traversal.TraversalTagListsPartition` | src/scrape_gpt/parser.py:47-58 | the same split over whole traversals, pre-yield included, when `include_self` is off or the start tag is not in T |
| `Traversal.TagListsOverlapAtStart` | src/scrape_gpt/parser.py:47-58 | with `include_self`, a non-ignored start node whose tag is in T is yielded under both `ignore_tags=T` and `tag_conditions=T` |
| `Traversal.EndOnlyFromSelf` | src/scrape_gpt/parser.py:47-51 | a traversal yields the end node iff the start node is the end node and is pre-yielded, and then only as the start node |
| `Traversal.IncludeSelfRule` | src/scrape_gpt/parser.py:47-48 | the start node is pre-yielded iff `include_self` holds, its tag is an ignored tag and it is not ignored; with no ignored tags `include_self` changes nothing |
| `Traversal.TraversalKeepsConditionTags` | src/scrape_gpt/parser.py:53-58 | with tag conditions and no ignored tags every yielded node carries a listed tag and is not ignored |
| `Traversal.FilteredTraverse` | src/scrape_gpt/parser.py:60-66 | `filtered_traverse` yields the nodes of the text-including traversal that pass the predicate, in order, with `ignore_tags` not forwarded |
| `Traversal.KeepFiltered` | src/scrape_gpt/parser.py:65-66 | the loop of `filtered_traverse` keeps exactly the inner nodes the predicate accepts, in order |
| `Traversal.FilteredTraversal` | src/scrape_gpt/parser.py:60-66 | the output of `filtered_traverse` is a subsequence of the walk prefix and holds exactly the walked nodes that pass both the scope tests and the predicate |
| `Traversal.TraversePartialTree` | src/scrape_gpt/parser.py:69-75 | with no lists the traversal is exactly the walk up to `end_node`, for the subtree and the children-only variants |
| `Traversal.TraverseTextNodes` | src/scrape_gpt/parser.py:78-86 | `traverse_text_nodes` is `conditional_traverse` with text included and the single tag condition `-text` |
| `Traversal.TraverseTextChildNodes` | src/scrape_gpt/parser.py:88-97 | the same over the direct children only |
| `Traversal.TextTraversalMembers` | src/scrape_gpt/parser.py:78-97 | a text traversal yields exactly the text nodes before `end_node` that are not ignored |
| `Traversal.TextTraversalBound` | src/scrape_gpt/parser.py:214-216 | `get_text_nodes` returns at most as many nodes as the subtree has text nodes |
| `Traversal.CheckParent` | src/scrape_gpt/parser.py:107-115 | `check_parent` returns true iff some strict ancestor is a marker node or fires the `ignore_tags ^ (tag in tags)` test |
| `Traversal.CheckParentCases` | src/scrape_gpt/parser.py:107-115 | false for a parentless node; in tag mode true iff an ancestor is a marker node or has a listed tag; with the defaults true for every node with a parent |
| `Traversal.MediaFilter` | src/scrape_gpt/parser.py:100-105 | `_media_filter` accepts a node iff it is not ignored and its tag is img, svg, text, or a heading when headings are not read as text |
| `Traversal.TraverseMediaNodes` | src/scrape_gpt/parser.py:117-132 | `traverse_media_nodes` is `filtered_traverse` with the media tags and the no-heading-ancestor predicate |
| `Traversal.MediaNodes` | src/scrape_gpt/parser.py:117-132 | the media traversal yields, in walk order, exactly the walked, non-ignored nodes with a media tag and no heading ancestor, whatever `headings_as_text` is; each passes `_media_filter` |
| `Traversal.CountAllNodes` | src/scrape_gpt/parser.py:32-39 | the counts are the number of nodes and of text nodes in the document, the second no larger than the first |
| `Traversal.CountChildNodes` | src/scrape_gpt/parser.py:136-143 | the counts are the number of direct children and of those that are text nodes |
| `Extraction.ExtractLink` | src/scrape_gpt/parser.py:157-161 | a missing `href` raises; the result is `None` iff fragments are ignored and `href` starts with `#`; otherwise it is `href` unchanged |
| `Extraction.CollectLinks` | src/scrape_gpt/parser.py:168-171 | the loop of `get_links` computes `LinksOf`: the first anchor without `href` raises, and every kept anchor is appended with its link |
| `Extraction.LinksOfErr` | src/scrape_gpt/parser.py:168 | once an anchor raises, the whole loop raises with that error |
| `Extraction.LinksOfRaises` | src/scrape_gpt/parser.py:158 | the loop raises iff some anchor has no `href`, and then with a missing-`href` error |
| `Extraction.CollectedLinks` | src/scrape_gpt/parser.py:168-171 | `link_nodes` are the anchors `extract_link` keeps, in order, and `links` has the same length, pairing each node with its link |
| `Extraction.NoFragmentLinks` | src/scrape_gpt/parser.py:159-160 | with fragments ignored no collected link starts with `#` |
| `Extraction.CollectHeadings` | src/scrape_gpt/parser.py:151-153 | the loop of `get_headings` returns the nodes unchanged and, index by index, each node's stripped text |
| `Extraction.GetTextLens` | src/scrape_gpt/parser.py:222-226 | one length per node the text traversal yields, in order, each the stripped text length; at most as many as the subtree has text nodes |
| `Extraction.Label` | src/scrape_gpt/parser.py:179-183 | below a non-empty path the label extends it by `.`; at the top it is the bare tag |
| `Extraction.DValues` | src/scrape_gpt/parser.py:190-192 | the `d` of every path element, in order, or a missing-`d` error iff some path element lacks it |
| `Extraction.OwnMedia` | src/scrape_gpt/parser.py:186-194 | an `img` child gives `(label, src)` and an `svg` child `(label, [d of each path below])`, any other child nothing; it raises iff `src` or some `d` is missing |
| `Extraction.SvgPathData` | src/scrape_gpt/parser.py:188-192 | the `svg` loop computes `DValues` of the path elements below the node |
| `Extraction.GetMediaPaths` | src/scrape_gpt/parser.py:174-201 | the recursive loop of `get_media_paths` computes `MediaPaths`: the children's entries in order, or the first error |
| `Extraction.VisitChild` | src/scrape_gpt/parser.py:178-200 | one loop iteration: the child's own text entry, its own image entry, and the recursive results merged under their flags, or the error raised first |
| `Extraction.MediaPathsUnder` | src/scrape_gpt/parser.py:179-183 | below a non-empty path every returned label extends that path by a dot |
| `Extraction.LabelledNodesAreDescendants` | src/scrape_gpt/parser.py:179-183 | the labelled nodes are exactly the descendants, in pre-order |
| `Extraction.MediaPathsContent` | src/scrape_gpt/parser.py:174-201 | with no empty tag below, the text list is `(label, len(text_content.strip()))` for each node with own text, in pre-order (empty unless `return_text`); the image list is `(label, src)` or `(label, [d, ...])` for each img/svg node in pre-order when `return_images` is set, and for each img/svg child when it is not; each label is `path + "." + tag`, or the bare tag at the top |
| `Extraction.MediaPathsCount` | src/scrape_gpt/parser.py:184-200 | one text entry per node below with own text when `return_text` is set; one image entry per img/svg below when `return_images` is set, and still one per img/svg child when it is not |
| `Extraction.PyPrefix` | src/scrape_gpt/parser.py:236 | Python's `s[:m]`: a prefix of `s`, of length `min(m, len)` for non-negative `m` and `len + m` (at least 0) for negative `m` |
| `Extraction.Fit` | src/scrape_gpt/parser.py:232-238 | a string no longer than the limit is kept; a longer one becomes its length, or a prefix of at most `max_len` characters when truncating |
| `Extraction.NormalizeLengths` | src/scrape_gpt/parser.py:229-241 | succeeds iff every entry is a string (else `TypeError`), keeps the length, and maps each entry by `Fit` |
| `Extraction.HandleTextLen` | src/scrape_gpt/parser.py:229-241 | the loop of `handle_text_len` computes `NormalizeLengths` |
| `Extraction.NormalizeEntries` | src/scrape_gpt/parser.py:234-240 | short entries unchanged; longer ones become their first `max_len` characters when truncating, their integer length otherwise |
| `Extraction.TruncateIdempotent` | src/scrape_gpt/parser.py:229-241 | with truncation and a non-negative limit, applying it twice equals applying it once |
| `Extraction.NegativeLimitNotIdempotent` | src/scrape_gpt/parser.py:236 | with a negative limit a second truncating pass cuts again |
| `Extraction.ReplaceSecondPassFails` | src/scrape_gpt/parser.py:232-238 | in replace mode, once an entry was too long, a second pass raises `TypeError` |
| `Extraction.ReplaceIdempotentWhenShort` | src/scrape_gpt/parser.py:232-240 | in replace mode, when no entry is longer than the limit, the list comes back unchanged |
| `Strings.JoinSplit` | src/scrape_gpt/site_map.py:176 | splitting on a character and joining with it gives the string back |
| `Strings.SplitJoin` | src/scrape_gpt/site_map.py:176 | joining separator-free pieces and splitting again gives the pieces back |
| `Strings.SplitSeparatorsOnly` | src/scrape_gpt/site_map.py:176 | a string of separators only splits into empty pieces, one more than its length |
| `LlmInfo.IterLlmInfo` | src/scrape_gpt/site_map.py:7-12 | every tuple at the top level of the list is yielded |
| `LlmInfo.IterMembers` | src/scrape_gpt/site_map.py:7-12 | `iter_llm_info` yields a value iff it is a tuple somewhere in the nested lists |
| `LlmInfo.ItemMembers` | src/scrape_gpt/site_map.py:9-12 | one item contributes exactly the tuples nested in it; an item that is neither list nor tuple contributes nothing |
| `LlmInfo.IterAppend` | src/scrape_gpt/site_map.py:7-10 | the output for a concatenation is the concatenation of the outputs: left-to-right, depth-first order |
| `LlmInfo.IterFlat` | src/scrape_gpt/site_map.py:11-12 | a flat list of tuples is yielded unchanged |
| `LlmInfo.IterIdempotent` | src/scrape_gpt/site_map.py:7-12 | flattening a flattened list changes nothing |
| `LlmInfo.GetLlmDictIsFilter` | src/scrape_gpt/site_map.py:60-61 | `get_llm_dict` keeps, in attribute order, the pairs whose key is not ignored and whose value is truthy |
| `LlmInfo.GetLlmDictMembers` | src/scrape_gpt/site_map.py:60-61 | a pair is kept iff it is an attribute with a non-ignored key and a truthy value; the result is a subsequence of the attributes |
| `LlmInfo.GetLlmDictTwice` | src/scrape_gpt/site_map.py:60-61 | filtering with one ignore list and then another equals filtering once with both |
| `LlmInfo.GetLlmDictIdempotent` | src/scrape_gpt/site_map.py:60-61 | filtering twice with the same ignore list equals filtering once |
| `LlmInfo.KeysMembers` | src/scrape_gpt/site_map.py:14-20 | a key is collected iff some row's dict has it |
| `LlmInfo.GetLlmKeys` | src/scrape_gpt/site_map.py:14-20 | the loop of `get_llm_keys` computes the union of the rows' key sets |
| `LlmInfo.ValueStrings` | src/scrape_gpt/site_map.py:35 | joining the values succeeds iff all are strings (else `TypeError`) and gives them in order |
| `LlmInfo.RowTextsResult` | src/scrape_gpt/site_map.py:33-37 | rendering the rows succeeds iff every row renders, then gives one text per row in order; otherwise it raises `TypeError` |
| `LlmInfo.RowTextsPrefixErr` | src/scrape_gpt/site_map.py:33-37 | once a row raises, the whole rendering raises with that error |
| `LlmInfo.ToLlmString` | src/scrape_gpt/site_map.py:29-38 | the loop of `to_llm_string` computes `LlmString`: the key line and then one `path: v1,...` line per row, each ending in a newline |
| `LlmInfo.LinesSplit` | src/scrape_gpt/site_map.py:32-37 | newline-terminated lines without inner newlines split back into those lines plus a final empty piece |
| `LlmInfo.RenderedLines` | src/scrape_gpt/site_map.py:29-38 | when nothing contains a newline the output has exactly 1 + number-of-rows lines: the key line, then row i's text on line i+1 |
| `LlmInfo.FormatPath` | src/scrape_gpt/site_map.py:40-41 | `format_path` of one or more dot-free segments splits back on `.` into those segments |
| `LlmInfo.KeyString` | src/scrape_gpt/site_map.py:22-26 | the key string of one or more comma-free keys splits back on `,` into the keys, in order |
| `LlmInfo.GetLlmDict` | src/scrape_gpt/site_map.py:60-61 | `get_llm_dict` is no longer than the attributes, and every pair it keeps has a non-ignored key and a truthy value |
| `SiteMaps.InfoDict` | src/scrape_gpt/site_map.py:60-61 | an entry's dict has at most six pairs with distinct keys, and starts with the label when the label is non-empty and not ignored |
| `SiteMaps.InfoDictKeys` | src/scrape_gpt/site_map.py:64-72 | an entry record's dict has only field names as keys, none of them ignored |
| `SiteMaps.InfoDictLabel` | src/scrape_gpt/site_map.py:60-61 | the dict has `content_label` iff the label is non-empty and not ignored |
| `SiteMaps.Label` | src/scrape_gpt/site_map.py:125 | an entry's label is `parent_path + "." + content_label`, with a leading dot when `parent_path` is empty |
| `SiteMaps.SubTargets` | src/scrape_gpt/site_map.py:130-132 | one sub-target record per sub-target, in order, labelled `label + "." + sub_label` |
| `SiteMaps.Flatten` | src/scrape_gpt/site_map.py:122-143 | the entry's own labelled record comes first |
| `SiteMaps.Rows` | src/scrape_gpt/site_map.py:122-143 | one row per flattened record, with the record's label and its filtered dict |
| `SiteMaps.FlattenWithoutChildren` | src/scrape_gpt/site_map.py:122-134 | without children there are 1 + (sub-targets if included) rows, all labelled under the entry's own label |
| `SiteMaps.FlattenIsPreorder` | src/scrape_gpt/site_map.py:136-141 | with children and no sub-targets the rows are the entries of the tree in pre-order, child order kept |
| `SiteMaps.ForestFlattenIsPreorder` | src/scrape_gpt/site_map.py:138-139 | the children's rows are their subtrees' entries in pre-order, one child after the other |
| `SiteMaps.FlattenCount` | src/scrape_gpt/site_map.py:122-143 | with children and sub-targets the row count is the number of entries plus the total number of their sub-targets |
| `SiteMaps.FlatLabels` | src/scrape_gpt/site_map.py:125 | when every entry shares one parent path, row i is labelled `p + "." + content_label` of the i-th entry in pre-order |
| `SiteMaps.CreatedChildFlatten` | src/scrape_gpt/site_map.py:114-117 | after `create_child` the flattened rows are the old ones followed by the child's record (and its sub-targets) |
| `SiteMaps.CreatedChildSamePath` | src/scrape_gpt/site_map.py:115 | `create_child` keeps a tree whose entries share one parent path in that state |
| `SiteMaps.SiteMapEntry.constructor` | src/scrape_gpt/site_map.py:90-97 | the fields hold the arguments and `children` starts empty |
| `SiteMaps.SiteMapEntry.AddChild` | src/scrape_gpt/site_map.py:107-108 | appends the child at the end of `children`; nothing else changes |
| `SiteMaps.SiteMapEntry.AddParent` | src/scrape_gpt/site_map.py:110-112 | overwrites `parent` and `parent_path`; nothing else changes |
| `SiteMaps.SiteMapEntry.CreateChild` | src/scrape_gpt/site_map.py:114-117 | appends exactly one fresh child, whose parent is this entry and whose `parent_path` is this entry's `parent_path`; earlier children and all other fields unchanged; any entry is accepted, and when a snapshot `t` is given that it represents, it afterwards represents `WithChild(t, ...)`, so `CreatedChildFlatten` and `CreatedChildSamePath` apply to the objects |
| `SiteMaps.SiteMapEntry.GetLlmInternal` | src/scrape_gpt/site_map.py:122-143 | with children excluded, any entry (cycles included) returns its own row then, if asked, its sub-target rows; when a snapshot of its tree is given (required with children), it returns `Rows` of it: own row, sub-target rows if asked, then the children's rows in order if asked |
| `SiteMaps.SiteMapEntry.SubTargetRows` | src/scrape_gpt/site_map.py:128-134 | the sub-target loop gives one row per sub-target, labelled under the entry's label, with its filtered dict |
| `SiteMaps.SiteMapEntry.ChildRows` | src/scrape_gpt/site_map.py:136-141 | the children loop gives the concatenated rows of the children, in child order |
| `SiteMaps.PageUrlTemplate` | src/scrape_gpt/site_map.py:170-185 | an empty path gives `netloc`; the only error is `IndexError` |
| `SiteMaps.PageUrlSingleSegment` | src/scrape_gpt/site_map.py:172-183 | a single segment, with or without a leading and a trailing `/`, gives `netloc + "/" + segment` |
| `SiteMaps.SplitHasNonEmpty` | src/scrape_gpt/site_map.py:176-177 | a path with a character other than `/` keeps at least one segment |
| `SiteMaps.PageUrlError` | src/scrape_gpt/site_map.py:172-183 | the derivation raises iff the path is non-empty and made only of `/` |
| `SiteMaps.ResolveUrlInfo` | src/scrape_gpt/site_map.py:163-189 | given values are kept; with `auto_url_info`, a missing domain becomes `domain.suffix`, a missing subdomain the netloc, a missing template the derived one; it raises iff the derivation does |
| `SiteMaps.SiteMap.constructor` | src/scrape_gpt/site_map.py:158-190 | the fields hold the URL, path, description and resolved URL information, and `entries` starts empty |
| `SiteMaps.SiteMap.AddEntry` | src/scrape_gpt/site_map.py:193-194 | appends the entry at the end of `entries`; nothing else changes |
| `SiteMaps.SiteMap.CreateEntry` | src/scrape_gpt/site_map.py:197-204 | appends exactly one fresh entry, with the given record or one built from the arguments, parent the site map and `parent_path` the map's path; nothing else changes |

## Left out

- `src/scrape_gpt/scraper.py` (HTTP fetching, model loading, parser selection) is not part of this model. It is I/O and foreign machine-learning code.
- `SelectolaxParser.__init__` and `remove_unwanted_nodes` build and edit the library tree through foreign calls. The model takes an already-cleaned tree as input.
- The selectolax walks are not source code here. The model defines them as stated above (pre-order `traverse` starting at the node itself, direct children for `traverse_children`/`iter`). It also takes:
  - `css("path")` as the `path`-tagged descendants in document order;
  - `text()` (`parser.py:151`, `parser.py:225`) as the concatenated text of the node's subtree (`DeepText`), and `text_content` (`parser.py:184-185`) as the node's own text. The library gives `text_content` only for text nodes and `None` for elements, so a document is modelled with an empty own text on every element node; an element given own text would get a text entry the library never produces;
  - attribute values as strings. selectolax gives `None` for an attribute written without a value. Then `extract_link` raises at `startswith` when ignoring fragments, and otherwise returns `None`, which `get_links` skips (`parser.py:169`); `get_media_paths` records a `None` source. None of these cases is modelled;
  - `strip()` as removing the ASCII whitespace only: space, tab through carriage return, and 0x1C to 0x1F. Python also strips the non-ASCII Unicode whitespace characters.
- `get_headings` and `get_links` call a generator object as if it were a function, so as written both raise `TypeError` before their loop. Only their loop bodies are modelled, over a given node sequence (`CollectHeadings`, `CollectLinks`).
- `parse_media_children` is an empty stub.
- Extraction.MediaPathsContent: states the entries of `get_media_paths` only for subtrees with no empty tag, the usual case in a parsed document. With an empty tag, the label carry-over is stated by `MediaPaths` itself, not by a separate reference.
- `yaml.dump`, every `get_llm_view` method and its `print` are left out. `SiteMap.get_llm_view` also mutates a shared default list.
- `tldextract` and `urlparse` are left out. Their outputs (netloc, path, domain, suffix) are parameters of `ResolveUrlInfo`. The `SiteMap` constructor takes the resolved URL information.
- The multi-segment `page_url_template` embeds a Python list repr in a string. The model keeps its parts as `Nested(netloc, segments)` and does not render it.
- Python's set iteration order in `to_key_string` is not modelled. `to_llm_string` takes the key order as an argument that must enumerate the key set once.
- `EntryMethod` and all `__str__`/`__repr__` methods are plain records with nothing to verify. `main_method` is an optional method name.
- `EntryInfo.content_label` is a string; the untyped fields are a small `Value` type (`None`, a string, or a list of values). Truthiness is Python's: `None`, `""` and `[]` are false.
- SiteMaps.SiteMap.CreateEntry: when no record is given, the label is taken as a string, so a `None` label is not modelled.
- Identity of objects in Python lists (`node in ignore_nodes`, `parent in check_nodes`, the `end_node` test) is modelled by node identities. The model takes node equality to be identity and assumes identities are unique within a document; two nodes given the same identity would be treated as one node.
- The mutable default lists shared between calls (`entry_methods=[]`, `sub_target_info=[]`) are not modelled. Each call gets its own value.
- `handle_text_len`'s default limit of 75 is not a constant of the model; the limit is always an argument.

=== FILE: common.dfy ===
/**
 * Small shared vocabulary: optional values, the exceptions the Python code can
 * raise (as an error datatype), and order-preserving filtering of sequences.
 */
module Common {

  datatype Option<+T> = None | Some(value: T)

  /** The exceptions the modelled Python code raises on its own. */
  datatype Error =
    | MissingAttribute(name: string)  // KeyError on a node's or record's attribute
    | TypeError                       // len() of an int, str.join of a non-string
    | IndexError                      // indexing an empty list
    | UnboundPath                     // UnboundLocalError on a path not yet assigned

  datatype Result<+T> = Ok(value: T) | Err(error: Error)

  /** `a` can be obtained from `b` by deleting elements, keeping the order of the rest. */
  predicate IsSubsequence<T(==)>(a: seq<T>, b: seq<T>)
    decreases |b|
  {
    a == [] || (b != [] && if a[0] == b[0] then IsSubsequence(a[1..], b[1..]) else IsSubsequence(a, b[1..]))
  }

  /** The elements of `s` that satisfy `f`, in their original order. */
  function Filter<T(!new)>(s: seq<T>, f: T -> bool): (r: seq<T>)
    ensures |r| <= |s|
  {
    if s == [] then [] else (if f(s[0]) then [s[0]] else []) + Filter(s[1..], f)
  }

  /** The filter keeps exactly the elements that pass the test. */
  lemma {:induction false} FilterMembers<T(!new)>(s: seq<T>, f: T -> bool)
    ensures forall x :: x in Filter(s, f) <==> x in s && f(x)
  {
    if s != [] {
      FilterMembers(s[1..], f);
      assert s == [s[0]] + s[1..];
    }
  }

  lemma {:induction false} FilterAppend<T(!new)>(a: seq<T>, b: seq<T>, f: T -> bool)
    ensures Filter(a + b, f) == Filter(a, f) + Filter(b, f)
  {
    if a == [] {
      assert a + b == b;
    } else {
      assert (a + b)[0] == a[0];
      assert (a + b)[1..] == a[1..] + b;
      FilterAppend(a[1..], b, f);
      var h := if f(a[0]) then [a[0]] else [];
      assert Filter(a + b, f) == h + (Filter(a[1..], f) + Filter(b, f));
      assert Filter(a, f) == h + Filter(a[1..], f);
    }
  }

  lemma {:induction false} FilterIsSubsequence<T(!new)>(s: seq<T>, f: T -> bool)
    ensures IsSubsequence(Filter(s, f), s)
  {
    if s != [] {
      var rest := Filter(s[1..], f);
      FilterIsSubsequence(s[1..], f);
      if f(s[0]) {
        assert Filter(s, f) == [s[0]] + rest;
        assert ([s[0]] + rest)[1..] == rest;
      } else {
        assert Filter(s, f) == [] + rest == rest;
        SubsequenceDropHead(rest, s);
      }
    }
  }

  /** Deleting one more element at the front keeps a subsequence a subsequence. */
  lemma {:induction false} SubsequenceDropHead<T>(a: seq<T>, b: seq<T>)
    requires b != [] && IsSubsequence(a, b[1..])
    ensures IsSubsequence(a, b)
    decreases |b|, 1
  {
    if a != [] && a[0] == b[0] {
      SubsequenceTail(a, b[1..]);
    }
  }

  /** Dropping the first element of a non-empty subsequence keeps it a subsequence. */
  lemma {:induction false} SubsequenceTail<T>(a: seq<T>, c: seq<T>)
    requires a != [] && IsSubsequence(a, c)
    ensures IsSubsequence(a[1..], c)
    decreases |c|, 2
  {
    if a[0] == c[0] {
      SubsequenceDropHead(a[1..], c);
    } else {
      SubsequenceTail(a, c[1..]);
      SubsequenceDropHead(a[1..], c);
    }
  }

  /** A subsequence of a prefix of `c` is a subsequence of `c`. */
  lemma {:induction false} SubsequenceOfPrefix<T>(a: seq<T>, b: seq<T>, c: seq<T>)
    requires IsSubsequence(a, b) && b <= c
    ensures IsSubsequence(a, c)
    decreases |b|
  {
    if a != [] {
      assert b[1..] <= c[1..];
      if a[0] == b[0] {
        SubsequenceOfPrefix(a[1..], b[1..], c[1..]);
      } else {
        SubsequenceOfPrefix(a, b[1..], c[1..]);
      }
    }
  }

  /** Every element of a subsequence occurs in the sequence it was taken from. */
  lemma {:induction false} SubsequenceMembers<T>(a: seq<T>, b: seq<T>, x: T)
    requires IsSubsequence(a, b) && x in a
    ensures x in b
    decreases |b|
  {
    if a[0] == b[0] {
      if x != a[0] {
        assert x in a[1..];
        SubsequenceMembers(a[1..], b[1..], x);
      }
    } else {
      SubsequenceMembers(a, b[1..], x);
    }
  }

  /** Subsequences compose: a subsequence of a subsequence of `c` is one of `c`. */
  lemma {:induction false} SubsequenceTransitive<T>(a: seq<T>, b: seq<T>, c: seq<T>)
    requires IsSubsequence(a, b) && IsSubsequence(b, c)
    ensures IsSubsequence(a, c)
    decreases |c|
  {
    if a != [] {
      if b[0] == c[0] {
        if a[0] == b[0] {
          SubsequenceTransitive(a[1..], b[1..], c[1..]);
        } else {
          SubsequenceTransitive(a, b[1..], c[1..]);
          SubsequenceDropHead(a, c);
        }
      } else {
        SubsequenceTransitive(a, b, c[1..]);
        SubsequenceDropHead(a, c);
      }
    }
  }

  /** Filtering with a test every element passes changes nothing. */
  lemma {:induction false} FilterAll<T(!new)>(s: seq<T>, f: T -> bool)
    requires forall x :: x in s ==> f(x)
    ensures Filter(s, f) == s
  {
    if s != [] {
      FilterAll(s[1..], f);
      assert [s[0]] + s[1..] == s;
    }
  }

  /** Filtering one element further along a sequence. */
  lemma FilterStep<T(!new)>(s: seq<T>, i: nat, f: T -> bool)
    requires i < |s|
    ensures Filter(s[..i + 1], f) == Filter(s[..i], f) + if f(s[i]) then [s[i]] else []
  {
    assert s[..i + 1] == s[..i] + [s[i]];
    FilterAppend(s[..i], [s[i]], f);
  }

  /** Filtering a prefix keeps no more elements than filtering the whole sequence. */
  lemma {:induction false} FilterPrefixLength<T(!new)>(p: seq<T>, s: seq<T>, f: T -> bool)
    requires p <= s
    ensures |Filter(p, f)| <= |Filter(s, f)|
  {
    assert s == p + s[|p|..];
    FilterAppend(p, s[|p|..], f);
  }

  /** Filtering with a test no element passes leaves nothing. */
  lemma {:induction false} FilterNone<T(!new)>(s: seq<T>, f: T -> bool)
    requires forall x :: x in s ==> !f(x)
    ensures Filter(s, f) == []
  {
    if s != [] {
      FilterNone(s[1..], f);
    }
  }

  /** `f` applied to every element of `s`, in order. */
  function MapSeq<A, B>(s: seq<A>, f: A -> B): (r: seq<B>)
    ensures |r| == |s|
    ensures forall i :: 0 <= i < |s| ==> r[i] == f(s[i])
  {
    seq(|s|, i requires 0 <= i < |s| => f(s[i]))
  }

  lemma MapSeqSingle<A, B>(x: A, f: A -> B)
    ensures MapSeq([x], f) == [f(x)]
  {
  }

  lemma MapSeqAppend<A, B>(a: seq<A>, b: seq<A>, f: A -> B)
    ensures MapSeq(a + b, f) == MapSeq(a, f) + MapSeq(b, f)
  {
    assert forall i :: 0 <= i < |a| ==> (a + b)[i] == a[i];
    assert forall i :: |a| <= i < |a + b| ==> (a + b)[i] == b[i - |a|];
  }

  /** Filtering and then mapping distributes over concatenation. */
  lemma FilterMapAppend<A(!new), B>(a: seq<A>, b: seq<A>, f: A -> bool, g: A -> B)
    ensures MapSeq(Filter(a + b, f), g) == MapSeq(Filter(a, f), g) + MapSeq(Filter(b, f), g)
  {
    FilterAppend(a, b, f);
    MapSeqAppend(Filter(a, f), Filter(b, f), g);
  }

  /** Filtering and then mapping one element. */
  lemma FilterMapSingle<A(!new), B>(x: A, f: A -> bool, g: A -> B)
    ensures MapSeq(Filter([x], f), g) == if f(x) then [g(x)] else []
  {
    assert [x][1..] == [];
  }

  /** Filtering twice is filtering once with both tests. */
  lemma {:induction false} FilterTwice<T(!new)>(s: seq<T>, f: T -> bool, g: T -> bool, h: T -> bool)
    requires forall x :: h(x) == (f(x) && g(x))
    ensures Filter(Filter(s, f), g) == Filter(s, h)
  {
    if s != [] {
      FilterTwice(s[1..], f, g, h);
      FilterAppend(if f(s[0]) then [s[0]] else [], Filter(s[1..], f), g);
    }
  }

  /** Filtering with a stronger test keeps no more elements. */
  lemma {:induction false} FilterWeaker<T(!new)>(s: seq<T>, f: T -> bool, g: T -> bool)
    requires forall x :: x in s && f(x) ==> g(x)
    ensures |Filter(s, f)| <= |Filter(s, g)|
  {
    if s != [] {
      FilterWeaker(s[1..], f, g);
    }
  }
}

=== FILE: dom.dfy ===
/**
 * The parsed document tree that the selectolax library hands to the parser.
 *
 * A `Node` is a value: an identity, a tag (`TEXT_TAG` for text nodes), the
 * node's own text, its attributes and its children in document order.  A
 * library node object also knows its parent; that is a `Located` node: the
 * node together with its chain of ancestors, parent first and document root
 * last.  The library's walks are written out here as functions:
 *   - `Subtree` is `node.traverse()`: a pre-order walk that starts with the
 *     node itself and visits children in document order;
 *   - `ChildrenOf` is `node.traverse_children()` / `node.iter()`: the direct
 *     children only;
 *   - `DeepText` is `node.text()`: the text of the subtree, concatenated;
 *   - `DescendantNodes` underlies `node.css("path")`.
 */
module Dom {
  import opened Common

  const TEXT_TAG := "-text"

  type NodeId = nat

  datatype Node = Node(id: NodeId, tag: string, text: string, attrs: map<string, string>, children: seq<Node>)

  datatype Located = Located(node: Node, ancestors: seq<Node>)

  /** The library object for child `c` of `l`: its parent is `l.node`. */
  function ChildAt(l: Located, c: Node): Located {
    Located(c, [l.node] + l.ancestors)
  }

  predicate IsText(l: Located) {
    l.node.tag == TEXT_TAG
  }

  /** Number of nodes in the tree rooted at `n`. */
  function Size(n: Node): nat
    decreases n, 1
  {
    1 + ForestSize(n.children)
  }

  function ForestSize(cs: seq<Node>): nat
    decreases cs, 0
  {
    if cs == [] then 0 else Size(cs[0]) + ForestSize(cs[1..])
  }

  /** Number of text nodes in the tree rooted at `n`. */
  function TextCount(n: Node): nat
    decreases n, 1
  {
    (if n.tag == TEXT_TAG then 1 else 0) + ForestTextCount(n.children)
  }

  function ForestTextCount(cs: seq<Node>): nat
    decreases cs, 0
  {
    if cs == [] then 0 else TextCount(cs[0]) + ForestTextCount(cs[1..])
  }

  /** `node.traverse()`: the pre-order walk of the subtree of `l`, starting with `l` itself. */
  function Subtree(l: Located): (r: seq<Located>)
    ensures |r| == Size(l.node)
    ensures r[0] == l
    decreases l.node, 1
  {
    [l] + Forest(l.node.children, [l.node] + l.ancestors)
  }

  /** The pre-order walks of the trees `cs`, one after the other; `anc` is their common ancestor chain. */
  function Forest(cs: seq<Node>, anc: seq<Node>): (r: seq<Located>)
    ensures |r| == ForestSize(cs)
    decreases cs, 0
  {
    if cs == [] then [] else Subtree(Located(cs[0], anc)) + Forest(cs[1..], anc)
  }

  /** `node.traverse_children()` and `node.iter()`: the direct children, in document order. */
  function ChildrenOf(l: Located): (r: seq<Located>)
    ensures |r| == |l.node.children|
    ensures forall i :: 0 <= i < |r| ==> r[i] == ChildAt(l, l.node.children[i])
  {
    seq(|l.node.children|, i requires 0 <= i < |l.node.children| => ChildAt(l, l.node.children[i]))
  }

  /** `node.text()`: the text of every node of the subtree, in document order. */
  function DeepText(n: Node): string
    decreases n, 1
  {
    n.text + ForestText(n.children)
  }

  function ForestText(cs: seq<Node>): string
    decreases cs, 0
  {
    if cs == [] then "" else DeepText(cs[0]) + ForestText(cs[1..])
  }

  /** The nodes of the subtree of `n` in pre-order, `n` first. */
  function Nodes(n: Node): seq<Node>
    decreases n, 1
  {
    [n] + ForestNodes(n.children)
  }

  function ForestNodes(cs: seq<Node>): seq<Node>
    decreases cs, 0
  {
    if cs == [] then [] else Nodes(cs[0]) + ForestNodes(cs[1..])
  }

  /** The proper descendants of `n` in pre-order. */
  function DescendantNodes(n: Node): seq<Node> {
    ForestNodes(n.children)
  }

  /** A member of the walk of the forest `cs` is in the walk of one of the trees. */
  lemma {:induction false} ForestMember(cs: seq<Node>, anc: seq<Node>, y: Located)
    requires y in Forest(cs, anc)
    ensures exists k :: 0 <= k < |cs| && y in Subtree(Located(cs[k], anc))
    decreases cs
  {
    if y !in Subtree(Located(cs[0], anc)) {
      ForestMember(cs[1..], anc, y);
      var k :| 0 <= k < |cs[1..]| && y in Subtree(Located(cs[1..][k], anc));
      assert cs[1..][k] == cs[k + 1];
    }
  }

  /** Every tree of the forest contributes its whole walk. */
  lemma {:induction false} ForestContains(cs: seq<Node>, anc: seq<Node>, k: nat, y: Located)
    requires k < |cs| && y in Subtree(Located(cs[k], anc))
    ensures y in Forest(cs, anc)
    decreases cs
  {
    if k > 0 {
      assert cs[1..][k - 1] == cs[k];
      ForestContains(cs[1..], anc, k - 1, y);
    }
  }

  /**
   * The walk is closed under taking children: if `x` is visited, so is every
   * child of `x`, with `x` as its parent.
   */
  lemma {:induction false} ChildInSubtree(l: Located, x: Located, c: Node)
    requires x in Subtree(l) && c in x.node.children
    ensures ChildAt(x, c) in Subtree(l)
    decreases l.node
  {
    var cs, anc := l.node.children, [l.node] + l.ancestors;
    var k :| 0 <= k < |x.node.children| && x.node.children[k] == c;
    if x == l {
      ForestContains(cs, anc, k, ChildAt(x, c));
    } else {
      assert x in Forest(cs, anc);
      ForestMember(cs, anc, x);
      var j :| 0 <= j < |cs| && x in Subtree(Located(cs[j], anc));
      ChildInSubtree(Located(cs[j], anc), x, c);
      ForestContains(cs, anc, j, ChildAt(x, c));
    }
  }

  /** Counting the text nodes of a walk agrees with counting the text nodes of the tree. */
  lemma {:induction false} SubtreeTextCount(l: Located)
    ensures |Filter(Subtree(l), IsText)| == TextCount(l.node)
    decreases l.node, 1
  {
    var anc := [l.node] + l.ancestors;
    FilterAppend([l], Forest(l.node.children, anc), IsText);
    ForestTextCountWalk(l.node.children, anc);
  }

  lemma {:induction false} ForestTextCountWalk(cs: seq<Node>, anc: seq<Node>)
    ensures |Filter(Forest(cs, anc), IsText)| == ForestTextCount(cs)
    decreases cs, 0
  {
    if cs != [] {
      FilterAppend(Subtree(Located(cs[0], anc)), Forest(cs[1..], anc), IsText);
      SubtreeTextCount(Located(cs[0], anc));
      ForestTextCountWalk(cs[1..], anc);
    }
  }
}

=== FILE: extraction.dfy ===
/**
 * The content extractors of `SelectolaxParser` (src/scrape_gpt/parser.py):
 * `extract_link` and the link and heading collection loops, `get_text_lens`,
 * the dotted-path fingerprint `get_media_paths` and `handle_text_len`.
 */
module Extraction {
  import opened Common
  import opened Strings
  import opened Dom
  import opened Traversal

  // ---------------------------------------------------------------- links

  /** `extract_link`: the `href` of an anchor, or nothing for a fragment link when fragments are ignored. */
  function ExtractLink(n: Node, ignoreFragments: bool): (r: Result<Option<string>>)
    ensures r.Err? <==> "href" !in n.attrs
    ensures r.Err? ==> r.error == MissingAttribute("href")
    ensures r == Ok(None) <==> "href" in n.attrs && ignoreFragments && StartsWith(n.attrs["href"], "#")
    ensures r.Ok? && r.value.Some? ==> r.value.value == n.attrs["href"]
  {
    if "href" !in n.attrs then Err(MissingAttribute("href"))
    else if ignoreFragments && StartsWith(n.attrs["href"], "#") then Ok(None)
    else Ok(Some(n.attrs["href"]))
  }

  /** The anchors the links loop keeps: those `extract_link` gives a link for. */
  predicate KeptLink(l: Located, ignoreFragments: bool) {
    "href" in l.node.attrs && !(ignoreFragments && StartsWith(l.node.attrs["href"], "#"))
  }

  function LinkTest(ignoreFragments: bool): Located -> bool {
    (l: Located) => KeptLink(l, ignoreFragments)
  }

  /** The two lists `get_links` returns, `link_nodes` and `links`. */
  datatype Links = Links(nodes: seq<Located>, hrefs: seq<string>)

  /**
   * What the loop of `get_links` computes over the anchors it is given, one
   * anchor after the other: the first anchor without `href` raises, and a
   * kept anchor is appended to `link_nodes` together with its link.
   */
  function LinksOf(anchors: seq<Located>, ignoreFragments: bool): Result<Links>
  {
    if anchors == [] then Ok(Links([], []))
    else
      var last := anchors[|anchors| - 1];
      match LinksOf(anchors[..|anchors| - 1], ignoreFragments)
      case Err(e) => Err(e)
      case Ok(acc) =>
        match ExtractLink(last.node, ignoreFragments)
        case Err(e) => Err(e)
        case Ok(None) => Ok(acc)
        case Ok(Some(h)) => Ok(Links(acc.nodes + [last], acc.hrefs + [h]))
  }

  /** The loop of `get_links` over the anchors it is given. */
  method CollectLinks(anchors: seq<Located>, ignoreFragments: bool) returns (r: Result<Links>)
    ensures r == LinksOf(anchors, ignoreFragments)
  {
    var linkNodes: seq<Located> := [];
    var links: seq<string> := [];
    var i := 0;
    while i < |anchors|
      invariant 0 <= i <= |anchors|
      invariant LinksOf(anchors[..i], ignoreFragments) == Ok(Links(linkNodes, links))
    {
      var node := anchors[i];
      assert anchors[..i + 1][..i] == anchors[..i];
      var link := ExtractLink(node.node, ignoreFragments);
      if link.Err? {
        LinksOfErr(anchors, i + 1, ignoreFragments);
        return Err(link.error);
      }
      if link.value.Some? {
        links := links + [link.value.value];
        linkNodes := linkNodes + [node];
      }
      i := i + 1;
    }
    assert anchors[..i] == anchors;
    r := Ok(Links(linkNodes, links));
  }

  /** Once a prefix raises, the whole loop raises with the same error. */
  lemma {:induction false} LinksOfErr(anchors: seq<Located>, i: nat, ignoreFragments: bool)
    requires i <= |anchors| && LinksOf(anchors[..i], ignoreFragments).Err?
    ensures LinksOf(anchors, ignoreFragments) == LinksOf(anchors[..i], ignoreFragments)
    decreases |anchors| - i
  {
    if i < |anchors| {
      assert anchors[..i + 1][..i] == anchors[..i];
      LinksOfErr(anchors, i + 1, ignoreFragments);
    } else {
      assert anchors[..i] == anchors;
    }
  }

  /** The links loop raises exactly when some anchor has no `href`. */
  lemma {:induction false} LinksOfRaises(anchors: seq<Located>, ignoreFragments: bool)
    ensures LinksOf(anchors, ignoreFragments).Err? <==> exists i :: 0 <= i < |anchors| && "href" !in anchors[i].node.attrs
    ensures LinksOf(anchors, ignoreFragments).Err? ==> LinksOf(anchors, ignoreFragments).error == MissingAttribute("href")
  {
    if anchors != [] {
      var n := |anchors| - 1;
      var init := anchors[..n];
      LinksOfRaises(init, ignoreFragments);
      if LinksOf(init, ignoreFragments).Err? {
        var i :| 0 <= i < |init| && "href" !in init[i].node.attrs;
        assert anchors[i] == init[i];
      } else if "href" in anchors[n].node.attrs {
        assert forall i :: 0 <= i < |init| ==> init[i] == anchors[i];
      }
    }
  }

  /**
   * When the links loop completes, `link_nodes` are the anchors
   * `extract_link` keeps, in order, and `links` pairs each of them with the
   * link `extract_link` gives for it.
   */
  lemma {:induction false} CollectedLinks(anchors: seq<Located>, ignoreFragments: bool)
    ensures var r := LinksOf(anchors, ignoreFragments);
            r.Ok? ==>
              && r.value.nodes == Filter(anchors, LinkTest(ignoreFragments))
              && |r.value.hrefs| == |r.value.nodes|
              && forall k :: 0 <= k < |r.value.nodes| ==> ExtractLink(r.value.nodes[k].node, ignoreFragments) == Ok(Some(r.value.hrefs[k]))
  {
    if anchors != [] {
      var n := |anchors| - 1;
      CollectedLinks(anchors[..n], ignoreFragments);
      FilterStep(anchors, n, LinkTest(ignoreFragments));
      assert anchors[..n + 1] == anchors;
    }
  }

  /** With fragments ignored, no collected link is a fragment link. */
  lemma NoFragmentLinks(anchors: seq<Located>)
    ensures LinksOf(anchors, true).Ok? ==> forall h :: h in LinksOf(anchors, true).value.hrefs ==> !StartsWith(h, "#")
  {
    CollectedLinks(anchors, true);
  }

  // ---------------------------------------------------------------- headings and text lengths

  /** The two lists `get_headings` returns. */
  datatype Headings = Headings(nodes: seq<Located>, texts: seq<string>)

  /** The loop of `get_headings` over the heading nodes it is given: each node with its stripped text. */
  method CollectHeadings(headings: seq<Located>) returns (r: Headings)
    ensures r.nodes == headings
    ensures |r.texts| == |headings|
    ensures forall k :: 0 <= k < |headings| ==> r.texts[k] == Strip(DeepText(headings[k].node))
  {
    var headingNodes: seq<Located> := [];
    var headingText: seq<string> := [];
    var i := 0;
    while i < |headings|
      invariant 0 <= i <= |headings|
      invariant headingNodes == headings[..i]
      invariant |headingText| == i
      invariant forall k :: 0 <= k < i ==> headingText[k] == Strip(DeepText(headings[k].node))
    {
      var node := headings[i];
      var text := Strip(DeepText(node.node));
      headingText := headingText + [text];
      headingNodes := headingNodes + [node];
      i := i + 1;
    }
    assert headings[..i] == headings;
    r := Headings(headingNodes, headingText);
  }

  /**
   * `get_text_lens`: the stripped length of every node `traverse_text_nodes`
   * yields, in order; there are at most as many as the subtree has text nodes.
   */
  method GetTextLens(start: Located, end: Option<NodeId>, includeSelf: bool, ignoreNodes: set<NodeId>)
    returns (lens: seq<nat>)
    ensures var texts := Traversal.Traversal(TextScope(start, end, includeSelf, ignoreNodes, false));
            && |lens| == |texts|
            && (forall k :: 0 <= k < |lens| ==> lens[k] == |Strip(DeepText(texts[k].node))| <= |DeepText(texts[k].node)|)
    ensures |lens| <= TextCount(start.node)
  {
    var texts := TraverseTextNodes(start, end, includeSelf, ignoreNodes);
    lens := [];
    var i := 0;
    while i < |texts|
      invariant 0 <= i <= |texts|
      invariant |lens| == i
      invariant forall k :: 0 <= k < i ==> lens[k] == |Strip(DeepText(texts[k].node))|
    {
      lens := lens + [|Strip(DeepText(texts[i].node))|];
      i := i + 1;
    }
    TextTraversalBound(start, end, includeSelf, ignoreNodes);
  }

  // ---------------------------------------------------------------- get_media_paths

  /** What an image entry carries: an `img` node's `src`, or the `d` data of an `svg` node's paths. */
  datatype Media = Source(src: string) | PathData(d: seq<string>)

  /** The two lists `get_media_paths` returns: `(label, stripped text length)` and `(label, media)` pairs. */
  datatype Paths = Paths(texts: seq<(string, nat)>, images: seq<(string, Media)>)

  function Append(p: Paths, q: Paths): Paths {
    Paths(p.texts + q.texts, p.images + q.images)
  }

  /** Sequencing two computations that may raise: the first error wins, otherwise the lists are joined. */
  function Then(a: Result<Paths>, b: Result<Paths>): (r: Result<Paths>)
    ensures r.Ok? <==> a.Ok? && b.Ok?
  {
    if a.Err? then a else if b.Err? then b else Ok(Append(a.value, b.value))
  }

  /** The label of a child with tag `tag` under `path`: dotted, with no leading dot at the top. */
  function Label(path: string, tag: string): (r: string)
    ensures path != "" ==> StartsWith(r, path + ".") && r != ""
    ensures path == "" ==> r == tag
  {
    if path != "" then path + "." + tag else tag
  }

  predicate IsPathTag(n: Node) {
    n.tag == "path"
  }

  /** `child.css("path")`: the `path` elements below the node, in document order. */
  function PathTags(n: Node): seq<Node> {
    Filter(DescendantNodes(n), IsPathTag)
  }

  /** The `d` attribute of each node, or the error of the first one without it. */
  function DValues(ps: seq<Node>): (r: Result<seq<string>>)
    ensures r.Ok? <==> forall i :: 0 <= i < |ps| ==> "d" in ps[i].attrs
    ensures r.Err? ==> r.error == MissingAttribute("d")
    ensures r.Ok? ==> |r.value| == |ps| && forall i :: 0 <= i < |ps| ==> r.value[i] == ps[i].attrs["d"]
  {
    if ps == [] then Ok([])
    else if "d" !in ps[0].attrs then Err(MissingAttribute("d"))
    else match DValues(ps[1..])
      case Err(e) => Err(e)
      case Ok(ds) => Ok([ps[0].attrs["d"]] + ds)
  }

  /**
   * `get_media_paths(n, path, return_text, return_images)`.  `new_path` is a
   * local of the loop: a child with an empty tag keeps the previous child's
   * label, and before any child has set it, using it raises.
   */
  function MediaPaths(n: Node, path: string, rt: bool, ri: bool): Result<Paths>
    decreases n, 1
  {
    ScanChildren(n.children, path, None, rt, ri)
  }

  /** The loop of `get_media_paths` over `cs`, with `prev` the value `new_path` holds before it. */
  function ScanChildren(cs: seq<Node>, path: string, prev: Option<string>, rt: bool, ri: bool): Result<Paths>
    decreases cs, 0
  {
    if cs == [] then Ok(Paths([], []))
    else
      var np := NewPath(cs[0], path, prev);
      Then(ChildPaths(cs[0], np, rt, ri), ScanChildren(cs[1..], path, np, rt, ri))
  }

  /** The value of `new_path` once the child `c` has been looked at. */
  function NewPath(c: Node, path: string, prev: Option<string>): Option<string> {
    if c.tag != "" then Some(Label(path, c.tag)) else prev
  }

  /**
   * One iteration of the loop, for child `c` labelled `np`: its own text
   * length, its own image (whatever `return_images` is), and the results of
   * the recursive call, each merged only when its flag is set.
   */
  function ChildPaths(c: Node, np: Option<string>, rt: bool, ri: bool): Result<Paths>
    decreases c, 2
  {
    if np.None? then Err(UnboundPath)
    else
      var own := if rt && c.text != "" then [(np.value, |Strip(c.text)|)] else [];
      var media := OwnMedia(c, np.value);
      if media.Err? then Err(media.error)
      else match MediaPaths(c, np.value, rt, ri)
        case Err(e) => Err(e)
        case Ok(sub) => Ok(Paths(own + (if rt then sub.texts else []), media.value + (if ri then sub.images else [])))
  }

  predicate IsMediaNode(n: Node) {
    n.tag == "img" || n.tag == "svg"
  }

  /** The attributes an `img` or `svg` node needs are there: `src` on an `img`, `d` on each `path` below an `svg`. */
  predicate MediaReady(c: Node) {
    && (c.tag == "img" ==> "src" in c.attrs)
    && (c.tag == "svg" ==> DValues(PathTags(c)).Ok?)
  }

  /**
   * What an `img` or `svg` node records when it is `MediaReady`: its `src`,
   * or the `d` values of the `path` elements below it, in document order.
   */
  function MediaValue(c: Node): Media {
    if c.tag == "img" then Source(if "src" in c.attrs then c.attrs["src"] else "")
    else PathData(match DValues(PathTags(c)) case Ok(ds) => ds case Err(_) => [])
  }

  /** The image entry of an `img` or `svg` child itself, or none for other tags. */
  function OwnMedia(c: Node, name: string): (r: Result<seq<(string, Media)>>)
    ensures r.Ok? ==> |r.value| == (if IsMediaNode(c) then 1 else 0)
    ensures r.Ok? ==> forall m :: m in r.value ==> m.0 == name
    ensures r.Err? ==> IsMediaNode(c)
    ensures r.Ok? <==> MediaReady(c)
    ensures r.Ok? && c.tag == "img" ==> r.value == [(name, Source(c.attrs["src"]))]
    ensures r.Ok? && c.tag == "svg" ==> r.value == [(name, PathData(DValues(PathTags(c)).value))]
    ensures r.Ok? ==> r.value == if IsMediaNode(c) then [(name, MediaValue(c))] else []
  {
    if c.tag == "img" then
      if "src" in c.attrs then Ok([(name, Source(c.attrs["src"]))]) else Err(MissingAttribute("src"))
    else if c.tag == "svg" then
      match DValues(PathTags(c))
      case Err(e) => Err(e)
      case Ok(ds) => Ok([(name, PathData(ds))])
    else Ok([])
  }

  /** `get_media_paths`, written as the recursive loop of the source. */
  method GetMediaPaths(n: Node, path: string, rt: bool, ri: bool) returns (r: Result<Paths>)
    ensures r == MediaPaths(n, path, rt, ri)
    decreases n, 0
  {
    var texts: seq<(string, nat)> := [];
    var images: seq<(string, Media)> := [];
    var newPath: Option<string> := None;
    assert n.children[0..] == n.children;
    ThenUnit(ScanChildren(n.children, path, None, rt, ri));
    var i := 0;
    while i < |n.children|
      invariant 0 <= i <= |n.children|
      invariant MediaPaths(n, path, rt, ri) == Then(Ok(Paths(texts, images)), ScanChildren(n.children[i..], path, newPath, rt, ri))
    {
      var child := n.children[i];
      ScanStep(n.children, i, path, newPath, rt, ri);
      if child.tag != "" {
        newPath := Some(Label(path, child.tag));
      }
      var found := VisitChild(child, newPath, rt, ri);
      if found.Err? {
        return Err(found.error);
      }
      ThenAssoc(Paths(texts, images), found.value, ScanChildren(n.children[i + 1..], path, newPath, rt, ri));
      texts := texts + found.value.texts;
      images := images + found.value.images;
      i := i + 1;
    }
    ThenUnit(Ok(Paths(texts, images)));
    return Ok(Paths(texts, images));
  }

  /**
   * The body of the loop of `get_media_paths` for one child labelled
   * `newPath`: what it appends to the two lists, or the error it raises.
   */
  method VisitChild(child: Node, newPath: Option<string>, rt: bool, ri: bool) returns (r: Result<Paths>)
    requires child.tag != "" ==> newPath.Some?
    ensures r == ChildPaths(child, newPath, rt, ri)
    decreases child, 1
  {
    ChildPathsCases(child, newPath, rt, ri);
    var texts: seq<(string, nat)> := [];
    if rt && child.text != "" {
      if newPath.None? {
        return Err(UnboundPath);
      }
      texts := [(newPath.value, |Strip(child.text)|)];
    }
    var images: seq<(string, Media)> := [];
    if child.tag == "img" {
      if "src" !in child.attrs {
        return Err(MissingAttribute("src"));
      }
      images := [(newPath.value, Source(child.attrs["src"]))];
    }
    if child.tag == "svg" {
      var svgData := SvgPathData(child);
      if svgData.Err? {
        return Err(svgData.error);
      }
      images := [(newPath.value, PathData(svgData.value))];
    }
    if newPath.None? {
      return Err(UnboundPath);
    }
    assert OwnMedia(child, newPath.value) == Ok(images);
    var sub := GetMediaPaths(child, newPath.value, rt, ri);
    if sub.Err? {
      return sub;
    }
    ghost var own, media := texts, images;
    if sub.value.texts != [] && rt {
      texts := texts + sub.value.texts;
    }
    if sub.value.images != [] && ri {
      images := images + sub.value.images;
    }
    assert texts == own + (if rt then sub.value.texts else []);
    assert images == media + (if ri then sub.value.images else []);
    return Ok(Paths(texts, images));
  }

  /** How one iteration of the loop of `get_media_paths` ends: the first error, or the merged lists. */
  lemma ChildPathsCases(c: Node, np: Option<string>, rt: bool, ri: bool)
    ensures np.None? ==> ChildPaths(c, np, rt, ri) == Err(UnboundPath)
    ensures np.Some? && OwnMedia(c, np.value).Err? ==> ChildPaths(c, np, rt, ri) == Err(OwnMedia(c, np.value).error)
    ensures np.Some? && OwnMedia(c, np.value).Ok? && MediaPaths(c, np.value, rt, ri).Err? ==>
              ChildPaths(c, np, rt, ri) == Err(MediaPaths(c, np.value, rt, ri).error)
    ensures np.Some? && OwnMedia(c, np.value).Ok? && MediaPaths(c, np.value, rt, ri).Ok? ==>
              var sub := MediaPaths(c, np.value, rt, ri).value;
              ChildPaths(c, np, rt, ri) ==
                Ok(Paths((if rt && c.text != "" then [(np.value, |Strip(c.text)|)] else []) + (if rt then sub.texts else []),
                         OwnMedia(c, np.value).value + (if ri then sub.images else [])))
  {
  }

  /** The empty result is a unit of `Then` on either side. */
  lemma ThenUnit(a: Result<Paths>)
    ensures Then(Ok(Paths([], [])), a) == a
    ensures Then(a, Ok(Paths([], []))) == a
  {
    if a.Ok? {
      assert [] + a.value.texts == a.value.texts && a.value.texts + [] == a.value.texts;
      assert [] + a.value.images == a.value.images && a.value.images + [] == a.value.images;
    }
  }

  /** One iteration of the loop of `get_media_paths`, unfolded. */
  lemma ScanStep(cs: seq<Node>, i: nat, path: string, prev: Option<string>, rt: bool, ri: bool)
    requires i < |cs|
    ensures ScanChildren(cs[i..], path, prev, rt, ri) ==
            Then(ChildPaths(cs[i], NewPath(cs[i], path, prev), rt, ri), ScanChildren(cs[i + 1..], path, NewPath(cs[i], path, prev), rt, ri))
  {
    assert cs[i..][1..] == cs[i + 1..];
  }

  /** Appending one child's lists to the accumulated ones, ahead of the rest of the loop. */
  lemma ThenAssoc(acc: Paths, found: Paths, rest: Result<Paths>)
    ensures Then(Ok(acc), Then(Ok(found), rest)) == Then(Ok(Append(acc, found)), rest)
  {
    if rest.Ok? {
      assert acc.texts + (found.texts + rest.value.texts) == acc.texts + found.texts + rest.value.texts;
      assert acc.images + (found.images + rest.value.images) == acc.images + found.images + rest.value.images;
    }
  }

  /** The `svg` branch of `get_media_paths`: the `d` of every `path` element below the node, in order. */
  method SvgPathData(svg: Node) returns (r: Result<seq<string>>)
    ensures r == DValues(PathTags(svg))
  {
    var pathTags := PathTags(svg);
    var svgData: seq<string> := [];
    var j := 0;
    while j < |pathTags|
      invariant 0 <= j <= |pathTags|
      invariant |svgData| == j
      invariant forall k :: 0 <= k < j ==> "d" in pathTags[k].attrs && svgData[k] == pathTags[k].attrs["d"]
    {
      if "d" !in pathTags[j].attrs {
        return Err(MissingAttribute("d"));
      }
      svgData := svgData + [pathTags[j].attrs["d"]];
      j := j + 1;
    }
    assert DValues(pathTags).value == svgData;
    return Ok(svgData);
  }

  /** Every label in `p` starts with `prefix`. */
  predicate AllUnder(p: Paths, prefix: string) {
    && (forall t :: t in p.texts ==> StartsWith(t.0, prefix))
    && (forall m :: m in p.images ==> StartsWith(m.0, prefix))
  }

  /**
   * Labels are dotted paths: below a non-empty `path`, every label
   * `get_media_paths` returns extends `path` by a dot and at least one tag.
   */
  lemma {:induction false} MediaPathsUnder(n: Node, path: string, rt: bool, ri: bool)
    requires path != ""
    ensures MediaPaths(n, path, rt, ri).Ok? ==> AllUnder(MediaPaths(n, path, rt, ri).value, path + ".")
    decreases n, 1
  {
    ScanUnder(n.children, path, None, rt, ri);
  }

  lemma {:induction false} ScanUnder(cs: seq<Node>, path: string, prev: Option<string>, rt: bool, ri: bool)
    requires path != ""
    requires prev.Some? ==> StartsWith(prev.value, path + ".") && prev.value != ""
    ensures ScanChildren(cs, path, prev, rt, ri).Ok? ==> AllUnder(ScanChildren(cs, path, prev, rt, ri).value, path + ".")
    decreases cs, 0
  {
    if cs != [] {
      var np := NewPath(cs[0], path, prev);
      ChildUnder(cs[0], np, rt, ri, path + ".");
      ScanUnder(cs[1..], path, np, rt, ri);
    }
  }

  lemma {:induction false} ChildUnder(c: Node, np: Option<string>, rt: bool, ri: bool, prefix: string)
    requires np.Some? ==> StartsWith(np.value, prefix) && np.value != ""
    ensures ChildPaths(c, np, rt, ri).Ok? ==> AllUnder(ChildPaths(c, np, rt, ri).value, prefix)
    decreases c, 2
  {
    var r := ChildPaths(c, np, rt, ri);
    if r.Ok? {
      var sub := MediaPaths(c, np.value, rt, ri);
      MediaPathsUnder(c, np.value, rt, ri);
      forall t | t in sub.value.texts
        ensures StartsWith(t.0, prefix)
      {
        PrefixThroughDot(prefix, np.value, t.0);
      }
      forall m | m in sub.value.images
        ensures StartsWith(m.0, prefix)
      {
        PrefixThroughDot(prefix, np.value, m.0);
      }
    }
  }

  lemma PrefixThroughDot(a: string, b: string, c: string)
    requires StartsWith(b, a) && StartsWith(c, b + ".")
    ensures StartsWith(c, a)
  {
    assert c[..|b|] == (b + ".")[..|b|] == b;
    assert c[..|a|] == c[..|b|][..|a|];
  }

  predicate HasOwnText(n: Node) {
    n.text != ""
  }

  /**
   * The counts of `get_media_paths`: one text entry per node below `n` with
   * text of its own when `return_text` is set (none otherwise); one image
   * entry per `img`/`svg` node below `n` when `return_images` is set, and
   * still one per `img`/`svg` child of `n` when it is not.
   */
  lemma {:induction false} MediaPathsCount(n: Node, path: string, rt: bool, ri: bool)
    ensures var r := MediaPaths(n, path, rt, ri);
            r.Ok? ==>
              && |r.value.texts| == (if rt then |Filter(DescendantNodes(n), HasOwnText)| else 0)
              && |r.value.images| == (if ri then |Filter(DescendantNodes(n), IsMediaNode)| else |Filter(n.children, IsMediaNode)|)
    decreases n, 1
  {
    ScanCount(n.children, path, None, rt, ri);
  }

  lemma {:induction false} ScanCount(cs: seq<Node>, path: string, prev: Option<string>, rt: bool, ri: bool)
    ensures var r := ScanChildren(cs, path, prev, rt, ri);
            r.Ok? ==>
              && |r.value.texts| == (if rt then |Filter(ForestNodes(cs), HasOwnText)| else 0)
              && |r.value.images| == (if ri then |Filter(ForestNodes(cs), IsMediaNode)| else |Filter(cs, IsMediaNode)|)
    decreases cs, 0
  {
    if cs != [] {
      var np := NewPath(cs[0], path, prev);
      ChildCount(cs[0], np, rt, ri);
      ScanCount(cs[1..], path, np, rt, ri);
      FilterAppend(Nodes(cs[0]), ForestNodes(cs[1..]), HasOwnText);
      FilterAppend(Nodes(cs[0]), ForestNodes(cs[1..]), IsMediaNode);
      FilterAppend([cs[0]], cs[1..], IsMediaNode);
      assert cs == [cs[0]] + cs[1..];
    }
  }

  lemma {:induction false} ChildCount(c: Node, np: Option<string>, rt: bool, ri: bool)
    ensures var r := ChildPaths(c, np, rt, ri);
            r.Ok? ==>
              && |r.value.texts| == (if rt then |Filter(Nodes(c), HasOwnText)| else 0)
              && |r.value.images| == (if ri then |Filter(Nodes(c), IsMediaNode)| else |Filter([c], IsMediaNode)|)
    decreases c, 2
  {
    if np.Some? {
      MediaPathsCount(c, np.value, rt, ri);
      FilterAppend([c], ForestNodes(c.children), HasOwnText);
      FilterAppend([c], ForestNodes(c.children), IsMediaNode);
    }
  }

  // ---------------------------------------------------------------- handle_text_len

  /** An entry of the list `handle_text_len` works on: a string, or an integer a previous call put there. */
  datatype Item = Str(s: string) | Int(n: int)

  /** Python's `s[:m]`; a negative `m` counts from the end. */
  function PyPrefix(s: string, m: int): (r: string)
    ensures r <= s
    ensures 0 <= m ==> |r| == if m < |s| then m else |s|
    ensures m < 0 ==> |r| == if |s| + m > 0 then |s| + m else 0
  {
    if m >= 0 then (if m < |s| then s[..m] else s)
    else if |s| + m > 0 then s[..|s| + m] else []
  }

  /** The entry `handle_text_len` makes of a string: unchanged, truncated, or replaced by its length. */
  function Fit(s: string, maxLen: int, truncate: bool): (r: Item)
    ensures |s| <= maxLen ==> r == Str(s)
    ensures r.Int? ==> r.n == |s| > maxLen
    ensures r.Str? ==> r.s <= s
    ensures truncate && 0 <= maxLen ==> r.Str? && |r.s| <= maxLen
  {
    if |s| > maxLen then (if truncate then Str(PyPrefix(s, maxLen)) else Int(|s|)) else Str(s)
  }

  /** What `handle_text_len` returns: `len` of an integer entry raises a `TypeError`. */
  function NormalizeLengths(texts: seq<Item>, maxLen: int, truncate: bool): (r: Result<seq<Item>>)
    ensures r.Ok? <==> forall i :: 0 <= i < |texts| ==> texts[i].Str?
    ensures r.Err? ==> r.error == TypeError
    ensures r.Ok? ==> |r.value| == |texts|
    ensures r.Ok? ==> forall i :: 0 <= i < |texts| ==> r.value[i] == Fit(texts[i].s, maxLen, truncate)
  {
    if forall i :: 0 <= i < |texts| ==> texts[i].Str? then
      Ok(seq(|texts|, i requires 0 <= i < |texts| => Fit(texts[i].s, maxLen, truncate)))
    else Err(TypeError)
  }

  /** `handle_text_len` (the parameter `trancute` of the source is `truncate` here). */
  method HandleTextLen(texts: seq<Item>, maxLen: int, truncate: bool) returns (r: Result<seq<Item>>)
    ensures r == NormalizeLengths(texts, maxLen, truncate)
  {
    var newTexts: seq<Item> := [];
    var i := 0;
    while i < |texts|
      invariant 0 <= i <= |texts|
      invariant |newTexts| == i
      invariant forall k :: 0 <= k < i ==> texts[k].Str? && newTexts[k] == Fit(texts[k].s, maxLen, truncate)
    {
      var text := texts[i];
      if text.Int? {
        return Err(TypeError);
      }
      var textLen := |text.s|;
      var item := text;
      if textLen > maxLen {
        if truncate {
          item := Str(PyPrefix(text.s, maxLen));
        } else {
          item := Int(textLen);
        }
      }
      assert item == Fit(texts[i].s, maxLen, truncate);
      newTexts := newTexts + [item];
      i := i + 1;
    }
    assert NormalizeLengths(texts, maxLen, truncate).value == newTexts;
    return Ok(newTexts);
  }

  /**
   * Entry by entry: short strings pass through unchanged; a longer one becomes
   * its first `maxLen` characters when truncating and its length otherwise.
   */
  lemma NormalizeEntries(texts: seq<Item>, maxLen: int, truncate: bool, k: nat)
    requires k < |texts| && NormalizeLengths(texts, maxLen, truncate).Ok?
    ensures var out := NormalizeLengths(texts, maxLen, truncate).value;
            && (|texts[k].s| <= maxLen ==> out[k] == texts[k])
            && (|texts[k].s| > maxLen && truncate && maxLen >= 0 ==> out[k] == Str(texts[k].s[..maxLen]))
            && (|texts[k].s| > maxLen && !truncate ==> out[k] == Int(|texts[k].s|))
  {
  }

  /** With truncation and a non-negative limit, a second pass changes nothing. */
  lemma TruncateIdempotent(texts: seq<Item>, maxLen: int)
    requires maxLen >= 0
    ensures var once := NormalizeLengths(texts, maxLen, true);
            once.Ok? ==> NormalizeLengths(once.value, maxLen, true) == once
  {
    var once := NormalizeLengths(texts, maxLen, true);
    if once.Ok? {
      var twice := NormalizeLengths(once.value, maxLen, true);
      assert twice.Ok?;
      assert twice.value == once.value;
    }
  }

  /** A negative limit keeps cutting: `["ab"]` with limit -1 becomes `["a"]`, then `[""]`. */
  lemma NegativeLimitNotIdempotent()
    ensures NormalizeLengths([Str("ab")], -1, true) == Ok([Str("a")])
    ensures NormalizeLengths([Str("a")], -1, true) == Ok([Str("")])
  {
    var once := NormalizeLengths([Str("ab")], -1, true);
    assert once.value[0] == Fit("ab", -1, true) == Str("a");
    assert once.value == [Str("a")];
    var twice := NormalizeLengths([Str("a")], -1, true);
    assert twice.value[0] == Fit("a", -1, true) == Str("");
    assert twice.value == [Str("")];
  }

  /** Replacing by lengths is not idempotent: once an entry was too long, a second pass raises. */
  lemma ReplaceSecondPassFails(texts: seq<Item>, maxLen: int, k: nat)
    requires k < |texts| && texts[k].Str? && |texts[k].s| > maxLen
    ensures var once := NormalizeLengths(texts, maxLen, false);
            once.Ok? ==> NormalizeLengths(once.value, maxLen, false) == Err(TypeError)
  {
    var once := NormalizeLengths(texts, maxLen, false);
    if once.Ok? {
      assert once.value[k].Int?;
    }
  }

  /** When no entry is longer than the limit, replacing by lengths changes nothing, so a second pass does not raise. */
  lemma ReplaceIdempotentWhenShort(texts: seq<Item>, maxLen: int)
    requires forall k :: 0 <= k < |texts| ==> texts[k].Str? && |texts[k].s| <= maxLen
    ensures NormalizeLengths(texts, maxLen, false) == Ok(texts)
  {
    var once := NormalizeLengths(texts, maxLen, false);
    assert once.value == texts;
  }

  // ---------------------------------------------------------------- what get_media_paths returns

  /**
   * The nodes below `n` in pre-order, each with the dotted label
   * `get_media_paths` gives it when no tag is empty: `path + "." + tag`
   * below a non-empty path, the bare tag at the top.
   */
  function LabelledNodes(n: Node, path: string): seq<(string, Node)>
    decreases n, 1
  {
    LabelledForest(n.children, path)
  }

  function LabelledForest(cs: seq<Node>, path: string): seq<(string, Node)>
    decreases cs, 0
  {
    if cs == [] then []
    else
      var l := Label(path, cs[0].tag);
      [(l, cs[0])] + LabelledNodes(cs[0], l) + LabelledForest(cs[1..], path)
  }

  /** The direct children with their labels. */
  function LabelledChildren(cs: seq<Node>, path: string): seq<(string, Node)> {
    if cs == [] then [] else [(Label(path, cs[0].tag), cs[0])] + LabelledChildren(cs[1..], path)
  }

  function NodeOf(p: (string, Node)): Node {
    p.1
  }

  predicate OwnTextAt(p: (string, Node)) {
    p.1.text != ""
  }

  predicate MediaAt(p: (string, Node)) {
    IsMediaNode(p.1)
  }

  /** A text entry: the label and the length of the node's own stripped text. */
  function TextEntry(p: (string, Node)): (string, nat) {
    (p.0, |Strip(p.1.text)|)
  }

  /** An image entry: the label and the node's `src` or path data. */
  function MediaEntry(p: (string, Node)): (string, Media) {
    (p.0, MediaValue(p.1))
  }

  /** The labelled nodes are exactly the descendants, in pre-order. */
  lemma {:induction false} LabelledNodesAreDescendants(n: Node, path: string)
    ensures MapSeq(LabelledNodes(n, path), NodeOf) == DescendantNodes(n)
    decreases n, 1
  {
    LabelledForestIsForest(n.children, path);
  }

  lemma {:induction false} LabelledForestIsForest(cs: seq<Node>, path: string)
    ensures MapSeq(LabelledForest(cs, path), NodeOf) == ForestNodes(cs)
    decreases cs, 0
  {
    if cs != [] {
      var l := Label(path, cs[0].tag);
      LabelledNodesAreDescendants(cs[0], l);
      LabelledForestIsForest(cs[1..], path);
      MapSeqAppend([(l, cs[0])] + LabelledNodes(cs[0], l), LabelledForest(cs[1..], path), NodeOf);
      MapSeqAppend([(l, cs[0])], LabelledNodes(cs[0], l), NodeOf);
      MapSeqSingle((l, cs[0]), NodeOf);
    }
  }

  /**
   * What `get_media_paths` returns, when no tag below `n` is empty: one
   * `(label, len(text.strip()))` entry per node with text of its own, in
   * pre-order, when `return_text` is set; one `(label, src)` or
   * `(label, [d, ...])` entry per `img`/`svg` node, in pre-order, when
   * `return_images` is set, and per `img`/`svg` child when it is not.
   */
  lemma MediaPathsContent(n: Node, path: string, rt: bool, ri: bool)
    requires forall d :: d in DescendantNodes(n) ==> d.tag != ""
    ensures var r := MediaPaths(n, path, rt, ri);
            r.Ok? ==>
              && r.value.texts == (if rt then MapSeq(Filter(LabelledNodes(n, path), OwnTextAt), TextEntry) else [])
              && r.value.images ==
                   MapSeq(Filter(if ri then LabelledNodes(n, path) else LabelledChildren(n.children, path), MediaAt), MediaEntry)
  {
    MediaTexts(n, path, rt, ri);
    MediaImages(n, path, rt, ri);
  }

  /** The text entries of a successful loop: the first child's own, those of its subtree, then those of the other children. */
  lemma ScanHeadTexts(cs: seq<Node>, path: string, prev: Option<string>, rt: bool, ri: bool)
    requires cs != [] && cs[0].tag != ""
    ensures var r := ScanChildren(cs, path, prev, rt, ri);
            var l := Label(path, cs[0].tag);
            var sub := MediaPaths(cs[0], l, rt, ri);
            var rest := ScanChildren(cs[1..], path, Some(l), rt, ri);
            r.Ok? ==>
              && sub.Ok? && rest.Ok?
              && r.value.texts == (if rt && cs[0].text != "" then [TextEntry((l, cs[0]))] else [])
                                  + (if rt then sub.value.texts else []) + rest.value.texts
  {
    var l := Label(path, cs[0].tag);
    ChildPathsCases(cs[0], Some(l), rt, ri);
  }

  /** The image entries of a successful loop: the first child's own, those of its subtree if kept, then those of the other children. */
  lemma ScanHeadImages(cs: seq<Node>, path: string, prev: Option<string>, rt: bool, ri: bool)
    requires cs != [] && cs[0].tag != ""
    ensures var r := ScanChildren(cs, path, prev, rt, ri);
            var l := Label(path, cs[0].tag);
            var sub := MediaPaths(cs[0], l, rt, ri);
            var rest := ScanChildren(cs[1..], path, Some(l), rt, ri);
            r.Ok? ==>
              && sub.Ok? && rest.Ok?
              && r.value.images == (if IsMediaNode(cs[0]) then [MediaEntry((l, cs[0]))] else [])
                                   + (if ri then sub.value.images else []) + rest.value.images
  {
    var l := Label(path, cs[0].tag);
    ChildPathsCases(cs[0], Some(l), rt, ri);
  }

  lemma {:induction false} MediaTexts(n: Node, path: string, rt: bool, ri: bool)
    requires forall d :: d in DescendantNodes(n) ==> d.tag != ""
    ensures var r := MediaPaths(n, path, rt, ri);
            r.Ok? ==> (r.value.texts == if rt then MapSeq(Filter(LabelledNodes(n, path), OwnTextAt), TextEntry) else [])
    decreases n, 1
  {
    ScanTexts(n.children, path, None, rt, ri);
  }

  lemma {:induction false} ScanTexts(cs: seq<Node>, path: string, prev: Option<string>, rt: bool, ri: bool)
    requires forall d :: d in ForestNodes(cs) ==> d.tag != ""
    ensures var r := ScanChildren(cs, path, prev, rt, ri);
            r.Ok? ==> (r.value.texts == if rt then MapSeq(Filter(LabelledForest(cs, path), OwnTextAt), TextEntry) else [])
    decreases cs, 0
  {
    if cs != [] {
      var c := cs[0];
      var l := Label(path, c.tag);
      assert ForestNodes(cs) == [c] + DescendantNodes(c) + ForestNodes(cs[1..]);
      ScanHeadTexts(cs, path, prev, rt, ri);
      MediaTexts(c, l, rt, ri);
      ScanTexts(cs[1..], path, Some(l), rt, ri);
      var x := (l, c);
      var below := LabelledNodes(c, l);
      var after := LabelledForest(cs[1..], path);
      assert LabelledForest(cs, path) == [x] + below + after;
      FilterMapAppend([x] + below, after, OwnTextAt, TextEntry);
      FilterMapAppend([x], below, OwnTextAt, TextEntry);
      FilterMapSingle(x, OwnTextAt, TextEntry);
    }
  }

  lemma MediaImages(n: Node, path: string, rt: bool, ri: bool)
    requires forall d :: d in DescendantNodes(n) ==> d.tag != ""
    ensures var r := MediaPaths(n, path, rt, ri);
            r.Ok? ==>
              r.value.images == MapSeq(Filter(if ri then LabelledNodes(n, path) else LabelledChildren(n.children, path), MediaAt), MediaEntry)
  {
    if ri {
      AllImages(n, path, rt);
    } else {
      forall k | 0 <= k < |n.children|
        ensures n.children[k].tag != ""
      {
        ChildInForest(n.children, k);
      }
      ScanChildImages(n.children, path, None, rt);
    }
  }

  lemma {:induction false} AllImages(n: Node, path: string, rt: bool)
    requires forall d :: d in DescendantNodes(n) ==> d.tag != ""
    ensures var r := MediaPaths(n, path, rt, true);
            r.Ok? ==> r.value.images == MapSeq(Filter(LabelledNodes(n, path), MediaAt), MediaEntry)
    decreases n, 1
  {
    ScanAllImages(n.children, path, None, rt);
  }

  lemma {:induction false} ScanAllImages(cs: seq<Node>, path: string, prev: Option<string>, rt: bool)
    requires forall d :: d in ForestNodes(cs) ==> d.tag != ""
    ensures var r := ScanChildren(cs, path, prev, rt, true);
            r.Ok? ==> r.value.images == MapSeq(Filter(LabelledForest(cs, path), MediaAt), MediaEntry)
    decreases cs, 0
  {
    if cs != [] {
      var c := cs[0];
      var l := Label(path, c.tag);
      assert ForestNodes(cs) == [c] + DescendantNodes(c) + ForestNodes(cs[1..]);
      ScanHeadImages(cs, path, prev, rt, true);
      AllImages(c, l, rt);
      ScanAllImages(cs[1..], path, Some(l), rt);
      var x := (l, c);
      var below := LabelledNodes(c, l);
      var after := LabelledForest(cs[1..], path);
      assert LabelledForest(cs, path) == [x] + below + after;
      FilterMapAppend([x] + below, after, MediaAt, MediaEntry);
      FilterMapAppend([x], below, MediaAt, MediaEntry);
      FilterMapSingle(x, MediaAt, MediaEntry);
    }
  }

  lemma {:induction false} ChildInForest(cs: seq<Node>, k: nat)
    requires k < |cs|
    ensures cs[k] in ForestNodes(cs)
  {
    if k > 0 {
      ChildInForest(cs[1..], k - 1);
    }
  }

  /** The media entries of a list of children, one child at a time. */
  lemma ChildMediaCons(cs: seq<Node>, path: string)
    requires cs != []
    ensures var x := (Label(path, cs[0].tag), cs[0]);
            MapSeq(Filter(LabelledChildren(cs, path), MediaAt), MediaEntry)
              == (if IsMediaNode(cs[0]) then [MediaEntry(x)] else []) + MapSeq(Filter(LabelledChildren(cs[1..], path), MediaAt), MediaEntry)
  {
    var x := (Label(path, cs[0].tag), cs[0]);
    assert LabelledChildren(cs, path) == [x] + LabelledChildren(cs[1..], path);
    FilterMapAppend([x], LabelledChildren(cs[1..], path), MediaAt, MediaEntry);
    FilterMapSingle(x, MediaAt, MediaEntry);
  }

  lemma {:induction false} ScanChildImages(cs: seq<Node>, path: string, prev: Option<string>, rt: bool)
    requires forall k :: 0 <= k < |cs| ==> cs[k].tag != ""
    ensures var r := ScanChildren(cs, path, prev, rt, false);
            r.Ok? ==> r.value.images == MapSeq(Filter(LabelledChildren(cs, path), MediaAt), MediaEntry)
    decreases cs
  {
    var r := ScanChildren(cs, path, prev, rt, false);
    if cs != [] && r.Ok? {
      var l := Label(path, cs[0].tag);
      var rest := ScanChildren(cs[1..], path, Some(l), rt, false);
      assert forall k :: 0 <= k < |cs[1..]| ==> cs[1..][k] == cs[k + 1];
      ScanHeadImages(cs, path, prev, rt, false);
      ScanChildImages(cs[1..], path, Some(l), rt);
      ChildMediaCons(cs, path);
      assert rest.value.images == MapSeq(Filter(LabelledChildren(cs[1..], path), MediaAt), MediaEntry);
    }
  }
}

=== FILE: llm_info.dfy ===
/**
 * The flat "LLM view" of a site map: rows `(dotted label, attribute dict)`,
 * the attribute filter that builds each dict, and the text rendering of a
 * list of rows (a key line, then one `label: v1,v2,...` line per row).
 *
 * A Python dict is modelled as the sequence of its `(key, value)` pairs in
 * insertion order; attribute values are `None`, strings or lists.
 */
module LlmInfo {
  import opened Common
  import opened Strings

  /** An attribute value: `None`, a `str`, or a `list`. */
  datatype Value = Null | Str(s: string) | List(items: seq<Value>)

  /** Python truthiness: `None`, `""` and `[]` are false. */
  predicate Truthy(v: Value) {
    match v
    case Null => false
    case Str(s) => s != ""
    case List(xs) => xs != []
  }

  /** A dict, as its items in insertion order. */
  type Dict = seq<(string, Value)>

  /** One row of the flat view: a dotted label and the entry's filtered attributes. */
  type Row = (string, Dict)

  /** An element of a nested `llm_info` list: a list, a tuple, or anything else. */
  datatype Info<T> = InfoList(items: seq<Info<T>>) | InfoTuple(t: T) | InfoOther

  /** `iter_llm_info`: the tuples found in arbitrarily nested lists, depth first, left to right. */
  function IterLlmInfo<T>(items: seq<Info<T>>): (r: seq<T>)
    ensures forall k :: 0 <= k < |items| && items[k].InfoTuple? ==> items[k].t in r
    decreases items, 0
  {
    if items == [] then []
    else
      assert forall k :: 0 < k < |items| ==> items[1..][k - 1] == items[k];
      IterItem(items[0]) + IterLlmInfo(items[1..])
  }

  function IterItem<T>(i: Info<T>): seq<T>
    decreases i, 1
  {
    match i
    case InfoList(xs) => IterLlmInfo(xs)
    case InfoTuple(t) => [t]
    case InfoOther => []
  }

  /** `x` is a tuple somewhere inside `i`, at any depth of list nesting. */
  predicate Occurs<T(==)>(x: T, i: Info<T>)
    decreases i
  {
    match i
    case InfoTuple(t) => t == x
    case InfoList(xs) => exists k :: 0 <= k < |xs| && Occurs(x, xs[k])
    case InfoOther => false
  }

  /** A list of tuples only, with no nesting. */
  function Tuples<T>(ts: seq<T>): (r: seq<Info<T>>)
    ensures |r| == |ts|
    ensures forall i :: 0 <= i < |ts| ==> r[i] == InfoTuple(ts[i])
  {
    seq(|ts|, i requires 0 <= i < |ts| => InfoTuple(ts[i]))
  }

  /** Flattening distributes over list concatenation. */
  lemma {:induction false} IterAppend<T>(a: seq<Info<T>>, b: seq<Info<T>>)
    ensures IterLlmInfo(a + b) == IterLlmInfo(a) + IterLlmInfo(b)
  {
    if a == [] {
      assert a + b == b;
    } else {
      assert (a + b)[1..] == a[1..] + b;
      IterAppend(a[1..], b);
    }
  }

  /** A flat list of tuples is yielded unchanged. */
  lemma {:induction false} IterFlat<T>(ts: seq<T>)
    ensures IterLlmInfo(Tuples(ts)) == ts
  {
    if ts != [] {
      IterFlat(ts[1..]);
      assert Tuples(ts)[1..] == Tuples(ts[1..]);
    }
  }

  /** Flattening is idempotent: flattening an already flattened list gives it back. */
  lemma IterIdempotent<T>(items: seq<Info<T>>)
    ensures IterLlmInfo(Tuples(IterLlmInfo(items))) == IterLlmInfo(items)
  {
    IterFlat(IterLlmInfo(items));
  }

  /** Exactly the tuples occurring in the nested lists are yielded. */
  lemma {:induction false} IterMembers<T>(items: seq<Info<T>>, x: T)
    ensures x in IterLlmInfo(items) <==> exists k :: 0 <= k < |items| && Occurs(x, items[k])
    decreases items, 0
  {
    if items != [] {
      ItemMembers(items[0], x);
      IterMembers(items[1..], x);
      if exists k :: 0 <= k < |items| && Occurs(x, items[k]) {
        var k :| 0 <= k < |items| && Occurs(x, items[k]);
        if k > 0 {
          assert items[1..][k - 1] == items[k];
        }
      }
      if exists k :: 0 <= k < |items[1..]| && Occurs(x, items[1..][k]) {
        var k :| 0 <= k < |items[1..]| && Occurs(x, items[1..][k]);
        assert items[1..][k] == items[k + 1];
      }
    }
  }

  lemma {:induction false} ItemMembers<T>(i: Info<T>, x: T)
    ensures x in IterItem(i) <==> Occurs(x, i)
    decreases i, 1
  {
    if i.InfoList? {
      IterMembers(i.items, x);
    }
  }

  /** The attribute test of `get_llm_dict`: not ignored, and truthy. */
  function Kept(ignored: seq<string>): ((string, Value)) -> bool {
    (p: (string, Value)) => p.0 !in ignored && Truthy(p.1)
  }

  /** `get_llm_dict`: the attributes whose key is not ignored and whose value is truthy, in order. */
  function GetLlmDict(attrs: Dict, ignored: seq<string>): (r: Dict)
    ensures |r| <= |attrs|
    ensures forall j :: 0 <= j < |r| ==> r[j].0 !in ignored && Truthy(r[j].1)
  {
    if attrs == [] then []
    else (if attrs[0].0 !in ignored && Truthy(attrs[0].1) then [attrs[0]] else []) + GetLlmDict(attrs[1..], ignored)
  }

  /** No key occurs twice. */
  predicate DistinctKeys(d: Dict) {
    forall i, j :: 0 <= i < j < |d| ==> d[i].0 != d[j].0
  }

  /** Prepending at most one pair whose key the rest lacks keeps keys distinct. */
  lemma ConsDistinct(head: Dict, rest: Dict)
    requires |head| <= 1 && DistinctKeys(rest)
    requires forall i, k :: 0 <= i < |head| && 0 <= k < |rest| ==> head[i].0 != rest[k].0
    ensures DistinctKeys(head + rest)
  {
    var r := head + rest;
    forall i, j | 0 <= i < j < |r|
      ensures r[i].0 != r[j].0
    {
      if i < |head| {
        assert r[i] == head[i] && r[j] == rest[j - |head|];
      } else {
        assert r[i] == rest[i - |head|] && r[j] == rest[j - |head|];
      }
    }
  }

  /** Filtering keeps keys distinct. */
  lemma {:induction false} GetLlmDictDistinct(attrs: Dict, ignored: seq<string>)
    requires DistinctKeys(attrs)
    ensures DistinctKeys(GetLlmDict(attrs, ignored))
  {
    if attrs != [] {
      var rest := GetLlmDict(attrs[1..], ignored);
      assert forall i, j :: 0 <= i < j < |attrs[1..]| ==> attrs[1..][i] == attrs[i + 1] && attrs[1..][j] == attrs[j + 1];
      GetLlmDictDistinct(attrs[1..], ignored);
      GetLlmDictMembers(attrs[1..], ignored);
      forall k | 0 <= k < |rest|
        ensures rest[k].0 != attrs[0].0
      {
        assert rest[k] in attrs[1..];
        var j :| 0 <= j < |attrs[1..]| && attrs[1..][j] == rest[k];
        assert attrs[j + 1] == rest[k];
      }
      var r := GetLlmDict(attrs, ignored);
      var head := if attrs[0].0 !in ignored && Truthy(attrs[0].1) then [attrs[0]] else [];
      assert r == head + rest;
      ConsDistinct(head, rest);
    }
  }

  /** The dict comprehension is the order-preserving filter with the test `Kept`. */
  lemma {:induction false} GetLlmDictIsFilter(attrs: Dict, ignored: seq<string>)
    ensures GetLlmDict(attrs, ignored) == Filter(attrs, Kept(ignored))
  {
    if attrs != [] {
      GetLlmDictIsFilter(attrs[1..], ignored);
    }
  }

  /** The filtered dict keeps exactly the attributes that are not ignored and truthy, in their original order. */
  lemma GetLlmDictMembers(attrs: Dict, ignored: seq<string>)
    ensures forall p :: p in GetLlmDict(attrs, ignored) <==> p in attrs && p.0 !in ignored && Truthy(p.1)
    ensures IsSubsequence(GetLlmDict(attrs, ignored), attrs)
  {
    GetLlmDictIsFilter(attrs, ignored);
    FilterIsSubsequence(attrs, Kept(ignored));
  }

  /** Filtering with one ignore list and then another is filtering with both. */
  lemma GetLlmDictTwice(attrs: Dict, ignored1: seq<string>, ignored2: seq<string>)
    ensures GetLlmDict(GetLlmDict(attrs, ignored1), ignored2) == GetLlmDict(attrs, ignored1 + ignored2)
  {
    GetLlmDictIsFilter(attrs, ignored1);
    GetLlmDictIsFilter(GetLlmDict(attrs, ignored1), ignored2);
    GetLlmDictIsFilter(attrs, ignored1 + ignored2);
    FilterTwice(attrs, Kept(ignored1), Kept(ignored2), Kept(ignored1 + ignored2));
  }

  /** Filtering is idempotent. */
  lemma GetLlmDictIdempotent(attrs: Dict, ignored: seq<string>)
    ensures GetLlmDict(GetLlmDict(attrs, ignored), ignored) == GetLlmDict(attrs, ignored)
  {
    GetLlmDictIsFilter(attrs, ignored);
    GetLlmDictIsFilter(GetLlmDict(attrs, ignored), ignored);
    FilterTwice(attrs, Kept(ignored), Kept(ignored), Kept(ignored));
  }

  /** `d.keys()`. */
  function KeysOf(d: Dict): set<string> {
    set j | 0 <= j < |d| :: d[j].0
  }

  /** The union of the keys of all rows, accumulated row by row. */
  function Keys(rows: seq<Row>): set<string> {
    if rows == [] then {} else Keys(rows[..|rows| - 1]) + KeysOf(rows[|rows| - 1].1)
  }

  /** A key is collected exactly when some row's dict has it. */
  lemma {:induction false} KeysMembers(rows: seq<Row>, k: string)
    ensures k in Keys(rows) <==> exists i :: 0 <= i < |rows| && k in KeysOf(rows[i].1)
  {
    if rows != [] {
      var init := rows[..|rows| - 1];
      KeysMembers(init, k);
      if exists i :: 0 <= i < |rows| && k in KeysOf(rows[i].1) {
        var i :| 0 <= i < |rows| && k in KeysOf(rows[i].1);
        if i < |rows| - 1 {
          assert init[i] == rows[i];
        }
      }
    }
  }

  /** `get_llm_keys`: the set of keys of all rows' dicts. */
  method GetLlmKeys(rows: seq<Row>) returns (keyNames: set<string>)
    ensures keyNames == Keys(rows)
  {
    keyNames := {};
    for i := 0 to |rows|
      invariant keyNames == Keys(rows[..i])
    {
      assert rows[..i + 1][..i] == rows[..i];
      keyNames := keyNames + KeysOf(rows[i].1);
    }
    assert rows[..|rows|] == rows;
  }

  /** `order` lists the members of `keys`, each once (the iteration order of a set is not modelled). */
  ghost predicate Enumerates(order: seq<string>, keys: set<string>) {
    && (forall k :: k in order <==> k in keys)
    && (forall i, j :: 0 <= i < j < |order| ==> order[i] != order[j])
  }

  /** `to_key_string`: the keys of all rows, comma separated, in the given set order. */
  function KeyString(order: seq<string>): (r: string)
    ensures |order| >= 1 && (forall i :: 0 <= i < |order| ==> ',' !in order[i]) ==> Split(r, ',') == order
  {
    if |order| >= 1 && (forall i :: 0 <= i < |order| ==> ',' !in order[i]) then
      SplitJoin(order, ',');
      Join(",", order)
    else Join(",", order)
  }

  /** `list(d.values())` for the comma join: a `TypeError` unless every value is a string. */
  function ValueStrings(d: Dict): (r: Result<seq<string>>)
    ensures r.Ok? <==> forall j :: 0 <= j < |d| ==> d[j].1.Str?
    ensures r.Err? ==> r.error == TypeError
    ensures r.Ok? ==> |r.value| == |d| && forall j :: 0 <= j < |d| ==> r.value[j] == d[j].1.s
  {
    if d == [] then Ok([])
    else if !d[0].1.Str? then Err(TypeError)
    else match ValueStrings(d[1..])
      case Err(e) => Err(e)
      case Ok(vs) => Ok([d[0].1.s] + vs)
  }

  /** One rendered row, without its line break: `label: v1,v2,...`. */
  function RowText(row: Row): Result<string> {
    match ValueStrings(row.1)
    case Err(e) => Err(e)
    case Ok(vs) => Ok(row.0 + ": " + Join(",", vs))
  }

  /** The rendered rows in order; the first row that cannot be rendered decides the error. */
  function RowTexts(rows: seq<Row>): Result<seq<string>> {
    if rows == [] then Ok([])
    else match RowTexts(rows[..|rows| - 1])
      case Err(e) => Err(e)
      case Ok(ts) =>
        match RowText(rows[|rows| - 1])
        case Err(e) => Err(e)
        case Ok(t) => Ok(ts + [t])
  }

  /** Lines, each terminated by a line break. */
  function Lines(ls: seq<string>): string {
    if ls == [] then "" else ls[0] + "\n" + Lines(ls[1..])
  }

  /** The whole rendering: the key line, then one line per row. */
  function LlmString(rows: seq<Row>, order: seq<string>): Result<string> {
    match RowTexts(rows)
    case Err(e) => Err(e)
    case Ok(ts) => Ok(Lines([KeyString(order)] + ts))
  }

  lemma {:induction false} LinesSnoc(ls: seq<string>, l: string)
    ensures Lines(ls + [l]) == Lines(ls) + l + "\n"
  {
    if ls == [] {
      assert [] + [l] == [l];
    } else {
      assert (ls + [l])[1..] == ls[1..] + [l];
      LinesSnoc(ls[1..], l);
    }
  }

  /** Once a prefix of the rows fails to render, the whole rendering fails with the same error. */
  lemma {:induction false} RowTextsPrefixErr(rows: seq<Row>, i: nat)
    requires i <= |rows| && RowTexts(rows[..i]).Err?
    ensures RowTexts(rows) == RowTexts(rows[..i])
  {
    if i < |rows| {
      var init := rows[..|rows| - 1];
      assert init[..i] == rows[..i];
      RowTextsPrefixErr(init, i);
    } else {
      assert rows[..i] == rows;
    }
  }

  /** Rendering fails exactly when some row has a non-string value; otherwise each row gives its line. */
  lemma {:induction false} RowTextsResult(rows: seq<Row>)
    ensures RowTexts(rows).Ok? <==> forall i :: 0 <= i < |rows| ==> RowText(rows[i]).Ok?
    ensures RowTexts(rows).Err? ==> RowTexts(rows).error == TypeError
    ensures RowTexts(rows).Ok? ==>
              |RowTexts(rows).value| == |rows| &&
              forall i :: 0 <= i < |rows| ==> RowTexts(rows).value[i] == RowText(rows[i]).value
  {
    if rows != [] {
      var init := rows[..|rows| - 1];
      RowTextsResult(init);
      assert forall i :: 0 <= i < |init| ==> init[i] == rows[i];
    }
  }

  /**
   * `to_llm_string`: the key line, then `label: v1,...,vk` for each row in
   * order, every line ending in a line break; a `TypeError` when a value is
   * not a string.
   */
  method ToLlmString(rows: seq<Row>, order: seq<string>) returns (r: Result<string>)
    requires Enumerates(order, Keys(rows))
    ensures r == LlmString(rows, order)
  {
    var keyString := KeyString(order);
    var llmString := keyString + "\n";
    ghost var ts: seq<string> := [];
    assert Lines([keyString] + ts) == llmString;
    for i := 0 to |rows|
      invariant RowTexts(rows[..i]) == Ok(ts)
      invariant llmString == Lines([keyString] + ts)
    {
      var (path, info) := rows[i];
      assert rows[..i + 1][..i] == rows[..i];
      var values := ValueStrings(info);
      if values.Err? {
        RowTextsPrefixErr(rows, i + 1);
        return Err(values.error);
      }
      var row := path + ": " + Join(",", values.value);
      LinesSnoc([keyString] + ts, row);
      assert [keyString] + ts + [row] == [keyString] + (ts + [row]);
      llmString := llmString + row + "\n";
      ts := ts + [row];
    }
    assert rows[..|rows|] == rows;
    r := Ok(llmString);
  }

  /** Text without line breaks, split into lines, gives the lines back followed by one empty remainder. */
  lemma {:induction false} LinesSplit(ls: seq<string>)
    requires forall i :: 0 <= i < |ls| ==> '\n' !in ls[i]
    ensures Split(Lines(ls), '\n') == ls + [""]
  {
    if ls != [] {
      LinesSplit(ls[1..]);
      SplitAround(ls[0], Lines(ls[1..]), '\n');
      SplitNoSeparator(ls[0], '\n');
      assert [ls[0]] + (ls[1..] + [""]) == ls + [""];
    }
  }

  /** Neither labels, keys nor values contain a line break. */
  predicate SingleLine(rows: seq<Row>, order: seq<string>) {
    && (forall k :: k in order ==> '\n' !in k)
    && (forall i :: 0 <= i < |rows| ==> '\n' !in rows[i].0)
    && (forall i, j :: 0 <= i < |rows| && 0 <= j < |rows[i].1| && rows[i].1[j].1.Str? ==> '\n' !in rows[i].1[j].1.s)
  }

  /**
   * The rendering is `1 + |rows|` newline-terminated lines: the key line, then
   * each row's `label: values` line in row order.
   */
  lemma RenderedLines(rows: seq<Row>, order: seq<string>)
    requires SingleLine(rows, order)
    requires LlmString(rows, order).Ok?
    ensures var lines := Split(LlmString(rows, order).value, '\n');
            && |lines| == |rows| + 2
            && lines[0] == KeyString(order)
            && lines[|rows| + 1] == ""
            && forall i :: 0 <= i < |rows| ==> RowText(rows[i]) == Ok(lines[i + 1])
  {
    RowTextsResult(rows);
    var ts := RowTexts(rows).value;
    JoinAvoids(",", order, '\n');
    forall i | 0 <= i < |rows|
      ensures '\n' !in ts[i]
    {
      var vs := ValueStrings(rows[i].1).value;
      JoinAvoids(",", vs, '\n');
      assert '\n' !in rows[i].0 + ": ";
    }
    LinesSplit([KeyString(order)] + ts);
  }

  /** `format_path`: the segments joined with dots, which split back into dot-free segments. */
  function FormatPath(paths: seq<string>): (r: string)
    ensures |paths| >= 1 && (forall i :: 0 <= i < |paths| ==> '.' !in paths[i]) ==> Split(r, '.') == paths
  {
    if |paths| >= 1 && (forall i :: 0 <= i < |paths| ==> '.' !in paths[i]) then
      SplitJoin(paths, '.');
      Join(".", paths)
    else Join(".", paths)
  }
}

=== FILE: site_map.dfy ===
/**
 * The site map: a tree of entries, each describing one target on a web page,
 * held by a `SiteMap` for one URL.  Entries and site maps are objects whose
 * `children` / `entries` lists grow in place; `EntryTree` is a value snapshot
 * of an entry and its descendants, against which the flattening
 * `GetLlmInternal` is specified.
 */
module SiteMaps {
  import opened Common
  import opened Strings
  import opened LlmInfo

  /** The record describing one entry: a label, the target, how to reach it, and optional notes. */
  datatype EntryInfo = EntryInfo(
    contentLabel: string,
    target: Value,
    targetMethod: Value,
    description: Value,
    steps: Value,
    note: Value)

  const FIELD_NAMES: seq<string> := ["content_label", "target", "target_method", "description", "steps", "note"]

  /** The record's attributes in declaration order (`as_dict`). */
  function AsDict(e: EntryInfo): Dict {
    [("content_label", Str(e.contentLabel)), ("target", e.target), ("target_method", e.targetMethod),
     ("description", e.description), ("steps", e.steps), ("note", e.note)]
  }

  /** `EntryInfo.get_llm_dict`: at most one pair per field, a kept label first. */
  function InfoDict(e: EntryInfo, ignored: seq<string>): (r: Dict)
    ensures |r| <= |FIELD_NAMES|
    ensures DistinctKeys(r)
    ensures e.contentLabel != "" && "content_label" !in ignored ==> r != [] && r[0] == ("content_label", Str(e.contentLabel))
  {
    GetLlmDictDistinct(AsDict(e), ignored);
    GetLlmDict(AsDict(e), ignored)
  }

  /** The keys of an entry's dict are field names that are not ignored. */
  lemma InfoDictKeys(e: EntryInfo, ignored: seq<string>)
    ensures forall k :: k in KeysOf(InfoDict(e, ignored)) ==> k in FIELD_NAMES && k !in ignored
  {
    var d := InfoDict(e, ignored);
    var a := AsDict(e);
    GetLlmDictMembers(a, ignored);
    forall k | k in KeysOf(d)
      ensures k in FIELD_NAMES && k !in ignored
    {
      var j :| 0 <= j < |d| && d[j].0 == k;
      assert d[j] in a;
    }
  }

  /** The label is listed exactly when it is non-empty and not ignored. */
  lemma InfoDictLabel(e: EntryInfo, ignored: seq<string>)
    ensures "content_label" in KeysOf(InfoDict(e, ignored)) <==> e.contentLabel != "" && "content_label" !in ignored
  {
    var a := AsDict(e);
    var rest := GetLlmDict(a[1..], ignored);
    GetLlmDictMembers(a[1..], ignored);
    assert InfoDict(e, ignored) == (if a[0].0 !in ignored && Truthy(a[0].1) then [a[0]] else []) + rest;
    forall j | 0 <= j < |rest|
      ensures rest[j].0 != "content_label"
    {
      assert rest[j] in a[1..];
    }
    var d := InfoDict(e, ignored);
    if a[0].0 !in ignored && Truthy(a[0].1) {
      assert d[0].0 == "content_label";
    } else {
      assert d == rest;
    }
  }

  /** A snapshot of an entry: its record, its parent path, its sub-targets and its children. */
  datatype EntryTree = EntryTree(info: EntryInfo, parentPath: string, subTargets: seq<EntryInfo>, children: seq<EntryTree>)

  /** An entry's dotted label: `parent_path + "." + content_label`, with a leading dot when the parent path is empty. */
  function Label(parentPath: string, info: EntryInfo): (r: string)
    ensures r == parentPath + "." + info.contentLabel
  {
    FormatPath([parentPath, info.contentLabel])
  }

  /** A record with the dotted label it is listed under: a row before its attributes are filtered. */
  type Labelled = (string, EntryInfo)

  /** The row of a labelled record: its label and its filtered attributes. */
  function RowOf(ignored: seq<string>): Labelled -> Row {
    (x: Labelled) => (x.0, InfoDict(x.1, ignored))
  }

  /** The sub-targets, each labelled below the entry's own label. */
  function SubTargets(prefix: string, subs: seq<EntryInfo>): (r: seq<Labelled>)
    ensures |r| == |subs|
    ensures forall i :: 0 <= i < |subs| ==> r[i] == (prefix + "." + subs[i].contentLabel, subs[i])
  {
    seq(|subs|, i requires 0 <= i < |subs| => (FormatPath([prefix, subs[i].contentLabel]), subs[i]))
  }

  /**
   * The labelled records of an entry: its own, then (when asked for) its
   * sub-targets', then (when asked for) its children's in order.
   */
  function Flatten(t: EntryTree, includeChildren: bool, includeSubTargets: bool): (r: seq<Labelled>)
    ensures |r| >= 1 && r[0] == (Label(t.parentPath, t.info), t.info)
    decreases t, 1
  {
    var own := Label(t.parentPath, t.info);
    [(own, t.info)]
    + (if includeSubTargets then SubTargets(own, t.subTargets) else [])
    + (if includeChildren then ForestFlatten(t.children, includeChildren, includeSubTargets) else [])
  }

  function ForestFlatten(cs: seq<EntryTree>, includeChildren: bool, includeSubTargets: bool): seq<Labelled>
    decreases cs, 0
  {
    if cs == [] then [] else Flatten(cs[0], includeChildren, includeSubTargets) + ForestFlatten(cs[1..], includeChildren, includeSubTargets)
  }

  /** The rows `get_llm_internal` returns: each labelled record with its filtered attributes. */
  function Rows(t: EntryTree, ignored: seq<string>, includeChildren: bool, includeSubTargets: bool): (r: seq<Row>)
    ensures |r| == |Flatten(t, includeChildren, includeSubTargets)|
    ensures forall i :: 0 <= i < |r| ==>
              r[i] == (Flatten(t, includeChildren, includeSubTargets)[i].0, InfoDict(Flatten(t, includeChildren, includeSubTargets)[i].1, ignored))
  {
    MapSeq(Flatten(t, includeChildren, includeSubTargets), RowOf(ignored))
  }

  lemma {:induction false} ForestFlattenAppend(a: seq<EntryTree>, b: seq<EntryTree>, ic: bool, ist: bool)
    ensures ForestFlatten(a + b, ic, ist) == ForestFlatten(a, ic, ist) + ForestFlatten(b, ic, ist)
  {
    if a == [] {
      assert a + b == b;
    } else {
      assert (a + b)[1..] == a[1..] + b;
      ForestFlattenAppend(a[1..], b, ic, ist);
    }
  }

  lemma ForestFlattenSnoc(cs: seq<EntryTree>, i: nat, ic: bool, ist: bool)
    requires i < |cs|
    ensures ForestFlatten(cs[..i + 1], ic, ist) == ForestFlatten(cs[..i], ic, ist) + Flatten(cs[i], ic, ist)
  {
    assert cs[..i + 1] == cs[..i] + [cs[i]];
    ForestFlattenAppend(cs[..i], [cs[i]], ic, ist);
    assert ForestFlatten([cs[i]], ic, ist) == Flatten(cs[i], ic, ist) + [];
  }

  lemma SubTargetsSnoc(prefix: string, subs: seq<EntryInfo>, i: nat)
    requires i < |subs|
    ensures SubTargets(prefix, subs[..i + 1]) == SubTargets(prefix, subs[..i]) + [(FormatPath([prefix, subs[i].contentLabel]), subs[i])]
  {
    var a := SubTargets(prefix, subs[..i + 1]);
    var b := SubTargets(prefix, subs[..i]);
    assert forall k :: 0 <= k < i ==> a[k] == b[k];
  }

  /** Without children, an entry gives its own row and, when asked for, one row per sub-target, all below its label. */
  lemma FlattenWithoutChildren(t: EntryTree, ist: bool)
    ensures |Flatten(t, false, ist)| == 1 + if ist then |t.subTargets| else 0
    ensures forall i :: 0 <= i < |Flatten(t, false, ist)| ==>
              StartsWith(Flatten(t, false, ist)[i].0, Label(t.parentPath, t.info))
  {
    var own := Label(t.parentPath, t.info);
    var r := Flatten(t, false, ist);
    forall i | 0 <= i < |r|
      ensures StartsWith(r[i].0, own)
    {
      if i > 0 {
        assert r[i] == SubTargets(own, t.subTargets)[i - 1];
        assert r[i].0 == own + ("." + t.subTargets[i - 1].contentLabel);
      }
    }
  }

  /** The entries of a snapshot in pre-order: the entry, then its children's entries in order. */
  function Entries(t: EntryTree): seq<EntryTree>
    decreases t, 1
  {
    [t] + ForestEntries(t.children)
  }

  function ForestEntries(cs: seq<EntryTree>): seq<EntryTree>
    decreases cs, 0
  {
    if cs == [] then [] else Entries(cs[0]) + ForestEntries(cs[1..])
  }

  lemma {:induction false} ForestEntriesAppend(a: seq<EntryTree>, b: seq<EntryTree>)
    ensures ForestEntries(a + b) == ForestEntries(a) + ForestEntries(b)
  {
    if a == [] {
      assert a + b == b;
    } else {
      assert (a + b)[1..] == a[1..] + b;
      ForestEntriesAppend(a[1..], b);
    }
  }

  /** An entry's own labelled record. */
  function OwnRecord(e: EntryTree): Labelled {
    (Label(e.parentPath, e.info), e.info)
  }

  /**
   * With children and without sub-targets, the flattening lists each entry of
   * the tree once, in pre-order, under its own label.
   */
  lemma {:induction false} FlattenIsPreorder(t: EntryTree)
    ensures Flatten(t, true, false) == MapSeq(Entries(t), OwnRecord)
    decreases t, 1
  {
    ForestFlattenIsPreorder(t.children);
    MapSeqAppend([t], ForestEntries(t.children), OwnRecord);
  }

  lemma {:induction false} ForestFlattenIsPreorder(cs: seq<EntryTree>)
    ensures ForestFlatten(cs, true, false) == MapSeq(ForestEntries(cs), OwnRecord)
    decreases cs, 0
  {
    if cs != [] {
      FlattenIsPreorder(cs[0]);
      ForestFlattenIsPreorder(cs[1..]);
      MapSeqAppend(Entries(cs[0]), ForestEntries(cs[1..]), OwnRecord);
    }
  }

  /** The number of sub-targets over a list of entries. */
  function SubTargetTotal(es: seq<EntryTree>): nat {
    if es == [] then 0 else |es[0].subTargets| + SubTargetTotal(es[1..])
  }

  lemma {:induction false} SubTargetTotalAppend(a: seq<EntryTree>, b: seq<EntryTree>)
    ensures SubTargetTotal(a + b) == SubTargetTotal(a) + SubTargetTotal(b)
  {
    if a == [] {
      assert a + b == b;
    } else {
      assert (a + b)[1..] == a[1..] + b;
      SubTargetTotalAppend(a[1..], b);
    }
  }

  /** With children and sub-targets, there is one row per entry plus one per sub-target of any entry. */
  lemma {:induction false} FlattenCount(t: EntryTree)
    ensures |Flatten(t, true, true)| == |Entries(t)| + SubTargetTotal(Entries(t))
    decreases t, 1
  {
    ForestFlattenCount(t.children);
    SubTargetTotalAppend([t], ForestEntries(t.children));
  }

  lemma {:induction false} ForestFlattenCount(cs: seq<EntryTree>)
    ensures |ForestFlatten(cs, true, true)| == |ForestEntries(cs)| + SubTargetTotal(ForestEntries(cs))
    decreases cs, 0
  {
    if cs != [] {
      FlattenCount(cs[0]);
      ForestFlattenCount(cs[1..]);
      SubTargetTotalAppend(Entries(cs[0]), ForestEntries(cs[1..]));
    }
  }

  /** Every entry of the tree has parent path `p`. */
  predicate SamePath(t: EntryTree, p: string) {
    forall i :: 0 <= i < |Entries(t)| ==> Entries(t)[i].parentPath == p
  }

  /**
   * When every entry shares one parent path, as it does in a tree grown only by
   * `CreateChild`, the labels do not nest: row `i` is `p + "." + ` the label of
   * the `i`-th entry in pre-order.
   */
  lemma FlatLabels(t: EntryTree, p: string)
    requires SamePath(t, p)
    ensures |Flatten(t, true, false)| == |Entries(t)|
    ensures forall i :: 0 <= i < |Entries(t)| ==> Flatten(t, true, false)[i].0 == p + "." + Entries(t)[i].info.contentLabel
  {
    FlattenIsPreorder(t);
  }

  /** The snapshot after `create_child`: a new leaf with the parent's own parent path, last among the children. */
  function WithChild(t: EntryTree, childInfo: EntryInfo, subTargets: seq<EntryInfo>): EntryTree {
    t.(children := t.children + [EntryTree(childInfo, t.parentPath, subTargets, [])])
  }

  /**
   * Creating a child appends exactly its records at the end of the flattening,
   * labelled at the parent's level, and keeps every earlier one.
   */
  lemma CreatedChildFlatten(t: EntryTree, childInfo: EntryInfo, subTargets: seq<EntryInfo>, ist: bool)
    ensures var childLabel := t.parentPath + "." + childInfo.contentLabel;
            Flatten(WithChild(t, childInfo, subTargets), true, ist)
            == Flatten(t, true, ist) + [(childLabel, childInfo)] + (if ist then SubTargets(childLabel, subTargets) else [])
  {
    var leaf := EntryTree(childInfo, t.parentPath, subTargets, []);
    var t' := WithChild(t, childInfo, subTargets);
    var own := [(Label(t.parentPath, t.info), t.info)];
    var subs := if ist then SubTargets(Label(t.parentPath, t.info), t.subTargets) else [];
    var before := ForestFlatten(t.children, true, ist);
    ForestFlattenAppend(t.children, [leaf], true, ist);
    assert ForestFlatten([leaf], true, ist) == Flatten(leaf, true, ist) + [];
    assert Flatten(t, true, ist) == own + subs + before;
    assert Flatten(t', true, ist) == own + subs + (before + Flatten(leaf, true, ist));
    var childLabel := Label(t.parentPath, childInfo);
    var added := if ist then SubTargets(childLabel, subTargets) else [];
    assert Flatten(leaf, true, ist) == [(childLabel, childInfo)] + added + [];
    Regroup(own, subs, before, [(childLabel, childInfo)], added);
  }

  lemma Regroup<T>(a: seq<T>, b: seq<T>, c: seq<T>, d: seq<T>, e: seq<T>)
    ensures a + b + (c + (d + e + [])) == a + b + c + d + e
  {
  }

  /** Creating a child keeps a tree's parent paths uniform. */
  lemma CreatedChildSamePath(t: EntryTree, childInfo: EntryInfo, subTargets: seq<EntryInfo>, p: string)
    requires SamePath(t, p)
    ensures SamePath(WithChild(t, childInfo, subTargets), p)
  {
    var leaf := EntryTree(childInfo, t.parentPath, subTargets, []);
    var t' := WithChild(t, childInfo, subTargets);
    ForestEntriesAppend(t.children, [leaf]);
    assert Entries(leaf) == [leaf] + ForestEntries([]);
    assert Entries(t') == [t'] + ForestEntries(t.children) + Entries(leaf);
    assert Entries(t) == [t] + ForestEntries(t.children);
    assert Entries(t)[0] == t;
    forall i | 0 <= i < |Entries(t')|
      ensures Entries(t')[i].parentPath == p
    {
      if 0 < i < |Entries(t)| {
        assert Entries(t')[i] == Entries(t)[i];
      }
    }
  }

  /** What holds an entry: nothing, another entry, or the site map. */
  datatype Parent = NoParent | EntryParent(entry: SiteMapEntry) | MapParent(site: SiteMap)

  /** `e` and its descendants currently hold the records, paths and children of the snapshot `t`. */
  ghost predicate Represents(e: SiteMapEntry, t: EntryTree)
    reads *
    decreases t
  {
    && e.info == t.info
    && e.parentPath == t.parentPath
    && e.subTargetInfo == t.subTargets
    && |e.children| == |t.children|
    && forall i :: 0 <= i < |t.children| ==> Represents(e.children[i], t.children[i])
  }

  /** The entry objects `e` stands for when it represents `t`: `e` and the objects below it, position by position. */
  ghost function Nodes(e: SiteMapEntry, t: EntryTree): set<SiteMapEntry>
    reads *
    decreases t, 1
  {
    {e} + ForestNodes(e.children, t.children)
  }

  ghost function ForestNodes(es: seq<SiteMapEntry>, ts: seq<EntryTree>): set<SiteMapEntry>
    reads *
    decreases ts, 0
  {
    if es == [] || ts == [] then {} else Nodes(es[0], ts[0]) + ForestNodes(es[1..], ts[1..])
  }

  /** An entry represents at most one snapshot. */
  lemma {:induction false} RepresentsUnique(e: SiteMapEntry, t: EntryTree, s: EntryTree)
    requires Represents(e, t) && Represents(e, s)
    ensures t == s
    decreases t
  {
    forall i | 0 <= i < |t.children|
      ensures t.children[i] == s.children[i]
    {
      RepresentsUnique(e.children[i], t.children[i], s.children[i]);
    }
  }

  /** An object below a represented forest represents a snapshot no larger than that forest. */
  lemma {:induction false} BelowIsSmaller(o: SiteMapEntry, es: seq<SiteMapEntry>, ts: seq<EntryTree>)
    requires |es| == |ts| && forall i :: 0 <= i < |ts| ==> Represents(es[i], ts[i])
    requires o in ForestNodes(es, ts)
    ensures exists s :: Represents(o, s) && |Entries(s)| <= |ForestEntries(ts)|
    decreases ts
  {
    assert ForestEntries(ts) == Entries(ts[0]) + ForestEntries(ts[1..]);
    if o == es[0] {
      assert Represents(o, ts[0]);
    } else if o in ForestNodes(es[0].children, ts[0].children) {
      BelowIsSmaller(o, es[0].children, ts[0].children);
      assert Entries(ts[0]) == [ts[0]] + ForestEntries(ts[0].children);
    } else {
      forall i | 0 <= i < |ts[1..]|
        ensures Represents(es[1..][i], ts[1..][i])
      {
        assert es[1..][i] == es[i + 1] && ts[1..][i] == ts[i + 1];
      }
      BelowIsSmaller(o, es[1..], ts[1..]);
    }
  }

  /** A represented entry is not among its own descendants. */
  lemma NotBelowItself(e: SiteMapEntry, t: EntryTree)
    requires Represents(e, t)
    ensures e !in ForestNodes(e.children, t.children)
  {
    assert |Entries(t)| == 1 + |ForestEntries(t.children)|;
    if e in ForestNodes(e.children, t.children) {
      BelowIsSmaller(e, e.children, t.children);
      var s :| Represents(e, s) && |Entries(s)| <= |ForestEntries(t.children)|;
      RepresentsUnique(e, t, s);
      assert false;
    }
  }

  /** The fields of an entry object that `Represents` reads, as a value. */
  datatype EntryFields = EntryFields(info: EntryInfo, parentPath: string, subTargets: seq<EntryInfo>, children: seq<SiteMapEntry>)

  ghost function FieldsOf(e: SiteMapEntry): EntryFields
    reads e
  {
    EntryFields(e.info, e.parentPath, e.subTargetInfo, e.children)
  }

  /** `Represents`, read from a recorded snapshot `m` of the objects' fields instead of the heap. */
  ghost predicate Mirrors(m: map<SiteMapEntry, EntryFields>, e: SiteMapEntry, t: EntryTree)
    decreases t
  {
    && e in m
    && m[e].info == t.info
    && m[e].parentPath == t.parentPath
    && m[e].subTargets == t.subTargets
    && |m[e].children| == |t.children|
    && forall i :: 0 <= i < |t.children| ==> Mirrors(m, m[e].children[i], t.children[i])
  }

  /** The objects below the `i`-th tree of a forest are among the forest's objects. */
  lemma {:induction false} ForestNodesHas(es: seq<SiteMapEntry>, ts: seq<EntryTree>, i: nat)
    requires i < |es| && i < |ts|
    ensures Nodes(es[i], ts[i]) <= ForestNodes(es, ts)
    decreases i
  {
    if i > 0 {
      ForestNodesHas(es[1..], ts[1..], i - 1);
      assert es[1..][i - 1] == es[i] && ts[1..][i - 1] == ts[i];
    }
  }

  /** The objects an entry stands for are allocated. */
  lemma {:induction false} NodesAllocated(e: SiteMapEntry, t: EntryTree)
    ensures forall o :: o in Nodes(e, t) ==> allocated(o)
    decreases t, 1
  {
    ForestNodesAllocated(e.children, t.children);
  }

  lemma {:induction false} ForestNodesAllocated(es: seq<SiteMapEntry>, ts: seq<EntryTree>)
    ensures forall o :: o in ForestNodes(es, ts) ==> allocated(o)
    decreases ts, 0
  {
    if es != [] && ts != [] {
      NodesAllocated(es[0], ts[0]);
      ForestNodesAllocated(es[1..], ts[1..]);
    }
  }

  /** A snapshot that agrees with the heap on the objects `e` stands for mirrors what `e` represents. */
  lemma {:induction false} SnapshotMirrors(m: map<SiteMapEntry, EntryFields>, e: SiteMapEntry, t: EntryTree)
    requires Represents(e, t)
    requires forall o :: o in Nodes(e, t) ==> o in m && m[o] == FieldsOf(o)
    ensures Mirrors(m, e, t)
    decreases t
  {
    forall i | 0 <= i < |t.children|
      ensures Mirrors(m, m[e].children[i], t.children[i])
    {
      ForestNodesHas(e.children, t.children, i);
      SnapshotMirrors(m, e.children[i], t.children[i]);
    }
  }

  /** Once the heap agrees with the snapshot again, what was mirrored is represented. */
  lemma {:induction false} MirrorsRepresents(m: map<SiteMapEntry, EntryFields>, e: SiteMapEntry, t: EntryTree)
    requires Mirrors(m, e, t)
    requires forall o :: o in m ==> FieldsOf(o) == m[o]
    ensures Represents(e, t)
    decreases t
  {
    assert FieldsOf(e) == m[e];
    forall i | 0 <= i < |t.children|
      ensures Represents(e.children[i], t.children[i])
    {
      MirrorsRepresents(m, m[e].children[i], t.children[i]);
    }
  }

  class SiteMapEntry {
    var info: EntryInfo
    var parent: Parent
    var parentPath: string
    var subTargetInfo: seq<EntryInfo>
    var mainMethod: Option<string>
    var entryMethods: seq<string>
    var children: seq<SiteMapEntry>

    /** A new entry, with no children yet. */
    constructor (entryInfo: EntryInfo, parent: Parent, parentPath: string, mainMethod: Option<string>,
                 entryMethods: seq<string>, subTargetInfo: seq<EntryInfo>)
      ensures this.info == entryInfo && this.parent == parent && this.parentPath == parentPath
      ensures this.mainMethod == mainMethod && this.entryMethods == entryMethods
      ensures this.subTargetInfo == subTargetInfo
      ensures children == []
    {
      this.info := entryInfo;
      this.parent := parent;
      this.parentPath := parentPath;
      this.subTargetInfo := subTargetInfo;
      this.mainMethod := mainMethod;
      this.entryMethods := entryMethods;
      this.children := [];
    }

    /** `add_child`: appends `child` to the children; nothing else changes. */
    method AddChild(child: SiteMapEntry)
      modifies this
      ensures children == old(children) + [child]
      ensures info == old(info) && parent == old(parent) && parentPath == old(parentPath)
      ensures subTargetInfo == old(subTargetInfo) && mainMethod == old(mainMethod) && entryMethods == old(entryMethods)
    {
      children := children + [child];
    }

    /** `add_parent`: replaces the parent and the parent path; nothing else changes. */
    method AddParent(parent: Parent, parentPath: string)
      modifies this
      ensures this.parent == parent && this.parentPath == parentPath
      ensures info == old(info) && children == old(children)
      ensures subTargetInfo == old(subTargetInfo) && mainMethod == old(mainMethod) && entryMethods == old(entryMethods)
    {
      this.parent := parent;
      this.parentPath := parentPath;
    }

    /**
     * `create_child`: a new entry whose parent is this entry and whose parent
     * path is this entry's own parent path (not extended by this entry's
     * label), appended as the last child; earlier children are kept. On the
     * snapshot `t` this entry represents, that is `WithChild`.
     */
    method CreateChild(childInfo: EntryInfo, mainMethod: Option<string>, entryMethods: seq<string>, subTargetInfo: seq<EntryInfo>,
                       ghost t: Option<EntryTree>)
      returns (child: SiteMapEntry)
      requires t.Some? ==> Represents(this, t.value)
      modifies this
      ensures fresh(child)
      ensures child.info == childInfo && child.parent == EntryParent(this) && child.parentPath == parentPath
      ensures child.mainMethod == mainMethod && child.entryMethods == entryMethods && child.subTargetInfo == subTargetInfo
      ensures child.children == []
      ensures children == old(children) + [child]
      ensures info == old(info) && parent == old(parent) && parentPath == old(parentPath)
      ensures this.subTargetInfo == old(this.subTargetInfo) && this.mainMethod == old(this.mainMethod)
      ensures this.entryMethods == old(this.entryMethods)
      ensures t.Some? ==> Represents(this, WithChild(t.value, childInfo, subTargetInfo))
    {
      ghost var kids := children;
      ghost var m: map<SiteMapEntry, EntryFields> := map[];
      if t.Some? {
        NotBelowItself(this, t.value);
        ForestNodesAllocated(children, t.value.children);
        m := map o | o in ForestNodes(children, t.value.children) :: FieldsOf(o);
        forall i | 0 <= i < |kids|
          ensures Mirrors(m, kids[i], t.value.children[i])
        {
          ForestNodesHas(kids, t.value.children, i);
          SnapshotMirrors(m, kids[i], t.value.children[i]);
        }
      }
      child := new SiteMapEntry(childInfo, EntryParent(this), parentPath, mainMethod, entryMethods, subTargetInfo);
      AddChild(child);
      if t.Some? {
        assert forall o :: o in m ==> FieldsOf(o) == m[o];
        forall i | 0 <= i < |kids|
          ensures Represents(kids[i], t.value.children[i])
        {
          MirrorsRepresents(m, kids[i], t.value.children[i]);
        }
        assert children[|kids|] == child;
        assert Represents(child, EntryTree(childInfo, t.value.parentPath, subTargetInfo, []));
      }
    }

    /**
     * `get_llm_internal`: the flattening of this entry and, when asked for,
     * its sub-targets and descendants, as `(dotted label, filtered dict)` rows.
     * The snapshot `t` is needed only when children are read; without them any
     * entry, even one that reaches a cycle, gives its own and sub-target rows.
     */
    method GetLlmInternal(ignoredInfo: seq<string>, includeChildren: bool, includeSubTargets: bool, ghost t: Option<EntryTree>)
      returns (finalData: seq<Row>)
      requires includeChildren ==> t.Some?
      requires t.Some? ==> Represents(this, t.value)
      ensures t.Some? ==> finalData == Rows(t.value, ignoredInfo, includeChildren, includeSubTargets)
      ensures !includeChildren ==>
                finalData == MapSeq([(Label(parentPath, info), info)]
                                    + (if includeSubTargets then SubTargets(Label(parentPath, info), subTargetInfo) else []),
                                    RowOf(ignoredInfo))
      decreases if t.Some? then t.value else EntryTree(info, parentPath, subTargetInfo, []), 1
    {
      var mainLlmDict := InfoDict(info, ignoredInfo);
      var labelPath := FormatPath([parentPath, info.contentLabel]);
      finalData := [(labelPath, mainLlmDict)];
      ghost var own := [(labelPath, info)];
      ghost var subRecords: seq<Labelled> := [];
      ghost var childRecords: seq<Labelled> := [];
      MapSeqSingle((labelPath, info), RowOf(ignoredInfo));
      assert finalData == MapSeq(own, RowOf(ignoredInfo));

      if includeSubTargets {
        var subLlmDicts := SubTargetRows(labelPath, ignoredInfo);
        subRecords := SubTargets(labelPath, subTargetInfo);
        MapSeqAppend(own, subRecords, RowOf(ignoredInfo));
        finalData := finalData + subLlmDicts;
      }
      assert finalData == MapSeq(own + subRecords, RowOf(ignoredInfo));

      if includeChildren {
        var childLlmDicts := ChildRows(ignoredInfo, includeChildren, includeSubTargets, t.value);
        childRecords := ForestFlatten(t.value.children, includeChildren, includeSubTargets);
        MapSeqAppend(own + subRecords, childRecords, RowOf(ignoredInfo));
        finalData := finalData + childLlmDicts;
      }
      if t.Some? {
        assert Flatten(t.value, includeChildren, includeSubTargets) == own + subRecords + childRecords;
      }
    }

    /** The sub-target loop of `get_llm_internal`: one row per sub-target, labelled below `labelPath`. */
    method SubTargetRows(labelPath: string, ignoredInfo: seq<string>) returns (subLlmDicts: seq<Row>)
      ensures subLlmDicts == MapSeq(SubTargets(labelPath, subTargetInfo), RowOf(ignoredInfo))
    {
      subLlmDicts := [];
      for i := 0 to |subTargetInfo|
        invariant subLlmDicts == MapSeq(SubTargets(labelPath, subTargetInfo[..i]), RowOf(ignoredInfo))
      {
        var subInfo := subTargetInfo[i];
        var subLabelPath := FormatPath([labelPath, subInfo.contentLabel]);
        SubTargetsSnoc(labelPath, subTargetInfo, i);
        MapSeqAppend(SubTargets(labelPath, subTargetInfo[..i]), [(subLabelPath, subInfo)], RowOf(ignoredInfo));
        subLlmDicts := subLlmDicts + [(subLabelPath, InfoDict(subInfo, ignoredInfo))];
      }
      assert subTargetInfo[..|subTargetInfo|] == subTargetInfo;
    }

    /** The children loop of `get_llm_internal`: the children's flattenings, one after the other. */
    method ChildRows(ignoredInfo: seq<string>, includeChildren: bool, includeSubTargets: bool, ghost t: EntryTree)
      returns (childLlmDicts: seq<Row>)
      requires Represents(this, t)
      ensures childLlmDicts == MapSeq(ForestFlatten(t.children, includeChildren, includeSubTargets), RowOf(ignoredInfo))
      decreases t, 0
    {
      childLlmDicts := [];
      for i := 0 to |children|
        invariant childLlmDicts == MapSeq(ForestFlatten(t.children[..i], includeChildren, includeSubTargets), RowOf(ignoredInfo))
      {
        assert Represents(children[i], t.children[i]);
        var rows := children[i].GetLlmInternal(ignoredInfo, includeChildren, includeSubTargets, Some(t.children[i]));
        ForestFlattenSnoc(t.children, i, includeChildren, includeSubTargets);
        MapSeqAppend(ForestFlatten(t.children[..i], includeChildren, includeSubTargets),
                     Flatten(t.children[i], includeChildren, includeSubTargets), RowOf(ignoredInfo));
        childLlmDicts := childLlmDicts + rows;
      }
      assert t.children[..|children|] == t.children;
    }
  }

  /** A page URL template: a plain string, or (with several path segments) the host and all segments but the last. */
  datatype PageTemplate = Plain(s: string) | Nested(netloc: string, segments: seq<string>)

  /** The URL details a site map keeps. */
  datatype UrlInfo = UrlInfo(domainUrl: Option<string>, subdomainUrl: Option<string>, pageUrlTemplate: Option<PageTemplate>)

  /** A caller-supplied argument that Python treats as true: present and non-empty. */
  predicate Given(s: Option<string>) {
    s.Some? && s.value != ""
  }

  predicate NonEmpty(s: string) {
    s != ""
  }

  /**
   * The page URL template derived from a URL's host `netloc` and path: the
   * host for an empty path; otherwise one trailing `/` is dropped, the path is
   * split at `/` and empty segments are discarded; a single segment gives
   * `netloc/segment`, several give the host with all but the last segment, and
   * none at all is an `IndexError`.
   */
  function PageUrlTemplate(netloc: string, urlPath: string): (r: Result<PageTemplate>)
    ensures urlPath == "" ==> r == Ok(Plain(netloc))
    ensures r.Err? ==> r.error == IndexError
  {
    if urlPath == "" then Ok(Plain(netloc))
    else
      var trimmed := if urlPath[|urlPath| - 1] == '/' then urlPath[..|urlPath| - 1] else urlPath;
      var segments := Filter(Split(trimmed, '/'), NonEmpty);
      if |segments| > 1 then Ok(Nested(netloc, segments[..|segments| - 1]))
      else if segments == [] then Err(IndexError)
      else Ok(Plain(netloc + "/" + segments[0]))
  }

  /** A path with a single segment, with or without a leading and a trailing slash, gives `netloc/segment`. */
  lemma PageUrlSingleSegment(netloc: string, segment: string, leading: bool, trailing: bool)
    requires segment != "" && '/' !in segment
    ensures PageUrlTemplate(netloc, (if leading then "/" else "") + segment + (if trailing then "/" else ""))
            == Ok(Plain(netloc + "/" + segment))
  {
    var lead := if leading then "/" else "";
    var urlPath := lead + segment + (if trailing then "/" else "");
    var trimmed := if urlPath[|urlPath| - 1] == '/' then urlPath[..|urlPath| - 1] else urlPath;
    if trailing {
      assert trimmed == lead + segment;
    } else {
      assert urlPath == lead + segment;
      assert urlPath[|urlPath| - 1] == segment[|segment| - 1];
      assert trimmed == lead + segment;
    }
    SplitNoSeparator(segment, '/');
    if leading {
      SplitAround("", segment, '/');
      assert "" + "/" + segment == lead + segment;
      assert Split(lead + segment, '/') == [""] + [segment];
      FilterAppend([""], [segment], NonEmpty);
    } else {
      assert lead + segment == segment;
    }
  }

  /** A character other than the separator makes some piece of the split non-empty. */
  lemma {:induction false} SplitHasNonEmpty(s: string, c: char, i: nat)
    requires i < |s| && s[i] != c
    ensures Filter(Split(s, c), NonEmpty) != []
  {
    var pieces := Split(s, c);
    if s[0] != c {
      assert NonEmpty(pieces[0]) && pieces[0] in pieces;
    } else {
      SplitHasNonEmpty(s[1..], c, i - 1);
      var rest := Split(s[1..], c);
      assert pieces == [""] + rest;
      FilterAppend([""], rest, NonEmpty);
    }
  }

  /** Deriving the template fails exactly for a non-empty path made of slashes only. */
  lemma PageUrlError(netloc: string, urlPath: string)
    ensures PageUrlTemplate(netloc, urlPath).Err? <==> urlPath != "" && forall i :: 0 <= i < |urlPath| ==> urlPath[i] == '/'
  {
    if urlPath != "" {
      var trimmed := if urlPath[|urlPath| - 1] == '/' then urlPath[..|urlPath| - 1] else urlPath;
      var segments := Filter(Split(trimmed, '/'), NonEmpty);
      if forall i :: 0 <= i < |urlPath| ==> urlPath[i] == '/' {
        SplitSeparatorsOnly(trimmed, '/');
        FilterNone(Split(trimmed, '/'), NonEmpty);
      } else {
        var i :| 0 <= i < |urlPath| && urlPath[i] != '/';
        assert i < |trimmed| && trimmed[i] == urlPath[i];
        SplitHasNonEmpty(trimmed, '/', i);
      }
    }
  }

  /**
   * The URL details `SiteMap.__init__` keeps.  Without automatic URL details
   * the arguments are kept as given.  With them, an argument that is missing or
   * empty is derived: the registered domain `domain.suffix`, the host, and the
   * page template from the host and path.  `netloc`, `urlPath`, `domain` and
   * `suffix` are what URL parsing produces.
   */
  function ResolveUrlInfo(autoUrlInfo: bool, domainUrl: Option<string>, subdomainUrl: Option<string>,
                          pageUrlTemplate: Option<string>, domain: string, suffix: string,
                          netloc: string, urlPath: string): (r: Result<UrlInfo>)
    ensures r.Err? <==> autoUrlInfo && !Given(pageUrlTemplate) && PageUrlTemplate(netloc, urlPath).Err?
    ensures r.Ok? && (!autoUrlInfo || Given(domainUrl)) ==> r.value.domainUrl == domainUrl
    ensures r.Ok? && (!autoUrlInfo || Given(subdomainUrl)) ==> r.value.subdomainUrl == subdomainUrl
    ensures r.Ok? && autoUrlInfo && !Given(domainUrl) ==> r.value.domainUrl == Some(domain + "." + suffix)
    ensures r.Ok? && autoUrlInfo && !Given(subdomainUrl) ==> r.value.subdomainUrl == Some(netloc)
    ensures r.Ok? && autoUrlInfo && !Given(pageUrlTemplate) ==> r.value.pageUrlTemplate == Some(PageUrlTemplate(netloc, urlPath).value)
    ensures r.Ok? && (!autoUrlInfo || Given(pageUrlTemplate)) ==>
              r.value.pageUrlTemplate == (if pageUrlTemplate.Some? then Some(Plain(pageUrlTemplate.value)) else None)
  {
    var given := if pageUrlTemplate.Some? then Some(Plain(pageUrlTemplate.value)) else None;
    if !autoUrlInfo then Ok(UrlInfo(domainUrl, subdomainUrl, given))
    else
      var d := if Given(domainUrl) then domainUrl else Some(domain + "." + suffix);
      var s := if Given(subdomainUrl) then subdomainUrl else Some(netloc);
      if Given(pageUrlTemplate) then Ok(UrlInfo(d, s, given))
      else match PageUrlTemplate(netloc, urlPath)
        case Err(e) => Err(e)
        case Ok(p) => Ok(UrlInfo(d, s, Some(p)))
  }

  class SiteMap {
    var url: string
    var path: string
    var description: Value
    var domainUrl: Option<string>
    var subdomainUrl: Option<string>
    var pageUrlTemplate: Option<PageTemplate>
    var entries: seq<SiteMapEntry>

    /** A site map for `url` with the resolved URL details and no entries. */
    constructor (url: string, urlInfo: UrlInfo, description: Value, path: string)
      ensures this.url == url && this.path == path && this.description == description
      ensures domainUrl == urlInfo.domainUrl && subdomainUrl == urlInfo.subdomainUrl
      ensures pageUrlTemplate == urlInfo.pageUrlTemplate
      ensures entries == []
    {
      this.url := url;
      this.path := path;
      this.description := description;
      this.domainUrl := urlInfo.domainUrl;
      this.subdomainUrl := urlInfo.subdomainUrl;
      this.pageUrlTemplate := urlInfo.pageUrlTemplate;
      this.entries := [];
    }

    /** `add_entry`: appends `entry`; nothing else changes. */
    method AddEntry(entry: SiteMapEntry)
      modifies this
      ensures entries == old(entries) + [entry]
      ensures url == old(url) && path == old(path) && description == old(description)
      ensures domainUrl == old(domainUrl) && subdomainUrl == old(subdomainUrl) && pageUrlTemplate == old(pageUrlTemplate)
    {
      entries := entries + [entry];
    }

    /**
     * `create_entry`: a new top-level entry for the given record, or for a
     * record built from the label and the other arguments; its parent is the
     * site map and its parent path the site map's path.
     */
    method CreateEntry(entryInfo: Option<EntryInfo>, contentLabel: string, target: Value, targetMethod: Value,
                       description: Value, steps: Value)
      returns (newEntry: SiteMapEntry)
      modifies this
      ensures fresh(newEntry)
      ensures newEntry.info == (if entryInfo.Some? then entryInfo.value else EntryInfo(contentLabel, target, targetMethod, description, steps, Null))
      ensures newEntry.parent == MapParent(this) && newEntry.parentPath == path
      ensures newEntry.mainMethod == None && newEntry.entryMethods == [] && newEntry.subTargetInfo == []
      ensures newEntry.children == []
      ensures entries == old(entries) + [newEntry]
      ensures url == old(url) && path == old(path) && this.description == old(this.description)
      ensures domainUrl == old(domainUrl) && subdomainUrl == old(subdomainUrl) && pageUrlTemplate == old(pageUrlTemplate)
    {
      if entryInfo.Some? {
        newEntry := new SiteMapEntry(entryInfo.value, MapParent(this), path, None, [], []);
      } else {
        var info := EntryInfo(contentLabel, target, targetMethod, description, steps, Null);
        newEntry := new SiteMapEntry(info, MapParent(this), path, None, [], []);
      }
      AddEntry(newEntry);
    }
  }
}

=== FILE: strings.dfy ===
/**
 * The few Python `str` operations the modelled code relies on: `sep.join`,
 * `str.split(c)`, `str.startswith` and `str.strip()`.
 */
module Strings {

  /** `sep.join(parts)`. */
  function Join(sep: string, parts: seq<string>): (r: string)
    ensures |parts| == 0 ==> r == ""
    ensures |parts| == 1 ==> r == parts[0]
    ensures |parts| == 2 ==> r == parts[0] + sep + parts[1]
  {
    if |parts| == 0 then ""
    else if |parts| == 1 then parts[0]
    else parts[0] + sep + Join(sep, parts[1..])
  }

  /** `s.split(c)` for a one-character separator: never empty, with an empty piece wherever two separators meet. */
  function Split(s: string, c: char): (r: seq<string>)
    ensures |r| >= 1
    ensures forall i :: 0 <= i < |r| ==> c !in r[i]
  {
    if s == [] then [""]
    else
      var rest := Split(s[1..], c);
      if s[0] == c then [""] + rest else [[s[0]] + rest[0]] + rest[1..]
  }

  /** Splitting on `c` and joining the pieces back with `c` gives the original string. */
  lemma {:induction false} JoinSplit(s: string, c: char)
    ensures Join([c], Split(s, c)) == s
  {
    if s != [] {
      var rest := Split(s[1..], c);
      JoinSplit(s[1..], c);
      if s[0] == c {
        assert Split(s, c) == [""] + rest;
        assert Join([c], [""] + rest) == [c] + Join([c], rest) by {
          assert ([""] + rest)[1..] == rest;
        }
      } else {
        JoinConsFirst([c], s[0], rest);
      }
    }
  }

  /** Prepending a character to the first piece prepends it to the joined string. */
  lemma JoinConsFirst(sep: string, ch: char, parts: seq<string>)
    requires |parts| >= 1
    ensures Join(sep, [[ch] + parts[0]] + parts[1..]) == [ch] + Join(sep, parts)
  {
    var ps := [[ch] + parts[0]] + parts[1..];
    assert ps[1..] == parts[1..];
  }

  /** Splitting a string with no separator gives the string itself. */
  lemma {:induction false} SplitNoSeparator(s: string, c: char)
    requires c !in s
    ensures Split(s, c) == [s]
  {
    if s != [] {
      assert c !in s[1..];
      SplitNoSeparator(s[1..], c);
      assert [s[0]] + s[1..] == s;
    }
  }

  /** Splitting around one separator concatenates the two splits. */
  lemma {:induction false} SplitAround(a: string, b: string, c: char)
    ensures Split(a + [c] + b, c) == Split(a, c) + Split(b, c)
  {
    if a == [] {
      assert a + [c] + b == [c] + b;
      assert ([c] + b)[1..] == b;
    } else {
      assert (a + [c] + b)[1..] == a[1..] + [c] + b;
      SplitAround(a[1..], b, c);
    }
  }

  /** Joining pieces that contain no separator and splitting again gives the pieces back. */
  lemma {:induction false} SplitJoin(parts: seq<string>, c: char)
    requires |parts| >= 1
    requires forall i :: 0 <= i < |parts| ==> c !in parts[i]
    ensures Split(Join([c], parts), c) == parts
  {
    if |parts| == 1 {
      SplitNoSeparator(parts[0], c);
    } else {
      SplitJoin(parts[1..], c);
      SplitAround(parts[0], Join([c], parts[1..]), c);
      SplitNoSeparator(parts[0], c);
      assert [c] == [c] && parts[0] + [c] + Join([c], parts[1..]) == Join([c], parts);
      assert [parts[0]] + parts[1..] == parts;
    }
  }

  /** A string made of separators only splits into empty pieces, one more than it has characters. */
  lemma {:induction false} SplitSeparatorsOnly(s: string, c: char)
    requires forall i :: 0 <= i < |s| ==> s[i] == c
    ensures |Split(s, c)| == |s| + 1
    ensures forall i :: 0 <= i < |Split(s, c)| ==> Split(s, c)[i] == ""
  {
    if s != [] {
      SplitSeparatorsOnly(s[1..], c);
    }
  }

  /** A character in neither the separator nor any piece is not in the joined string. */
  lemma {:induction false} JoinAvoids(sep: string, parts: seq<string>, c: char)
    requires c !in sep
    requires forall i :: 0 <= i < |parts| ==> c !in parts[i]
    ensures c !in Join(sep, parts)
  {
    if |parts| > 1 {
      JoinAvoids(sep, parts[1..], c);
    }
  }

  /** `s.startswith(prefix)`. */
  predicate StartsWith(s: string, prefix: string) {
    prefix <= s
  }

  /** The ASCII characters Python's `str.strip()` removes: space, tab through carriage return, and the separators 0x1C to 0x1F. */
  predicate IsSpace(ch: char) {
    ch == ' ' || '\t' <= ch <= '\r' || 0x1C <= ch as int <= 0x1F
  }

  /** `s.lstrip()`: `s` without its leading whitespace. */
  function TrimStart(s: string): (r: string)
    ensures |r| <= |s|
    ensures r == [] || !IsSpace(r[0])
  {
    if s != [] && IsSpace(s[0]) then TrimStart(s[1..]) else s
  }

  /** `s.rstrip()`: `s` without its trailing whitespace. */
  function TrimEnd(s: string): (r: string)
    ensures |r| <= |s|
    ensures r == [] || !IsSpace(r[|r| - 1])
  {
    if s != [] && IsSpace(s[|s| - 1]) then TrimEnd(s[..|s| - 1]) else s
  }

  /** Trimming the front removes a prefix made of whitespace only. */
  lemma {:induction false} TrimStartRemovesSpace(s: string)
    ensures TrimStart(s) == s[|s| - |TrimStart(s)|..]
    ensures forall i :: 0 <= i < |s| - |TrimStart(s)| ==> IsSpace(s[i])
  {
    if s != [] && IsSpace(s[0]) {
      TrimStartRemovesSpace(s[1..]);
      assert s[1..][|s| - 1 - |TrimStart(s)|..] == s[|s| - |TrimStart(s)|..];
      forall i | 1 <= i < |s| - |TrimStart(s)|
        ensures IsSpace(s[i])
      {
        assert s[i] == s[1..][i - 1];
      }
    }
  }

  /** Trimming the back removes a suffix made of whitespace only. */
  lemma {:induction false} TrimEndRemovesSpace(s: string)
    ensures TrimEnd(s) == s[..|TrimEnd(s)|]
    ensures forall i :: |TrimEnd(s)| <= i < |s| ==> IsSpace(s[i])
  {
    if s != [] && IsSpace(s[|s| - 1]) {
      var t := s[..|s| - 1];
      TrimEndRemovesSpace(t);
      assert t[..|TrimEnd(s)|] == s[..|TrimEnd(s)|];
      forall i | |TrimEnd(s)| <= i < |s| - 1
        ensures IsSpace(s[i])
      {
        assert s[i] == t[i];
      }
    }
  }

  /** `s.strip()`: the longest infix of `s` that neither starts nor ends with whitespace. */
  function Strip(s: string): (r: string)
    ensures |r| <= |s|
    ensures r == [] || (!IsSpace(r[0]) && !IsSpace(r[|r| - 1]))
  {
    var t := TrimStart(s);
    TrimEndRemovesSpace(t);
    TrimEnd(t)
  }

  /**
   * What `strip()` removes: `Strip(s)` is the part of `s` between a run of
   * leading and a run of trailing whitespace (the leading run has length `k`).
   */
  lemma StripInfix(s: string)
    ensures var k := |s| - |TrimStart(s)|;
            && k + |Strip(s)| <= |s|
            && Strip(s) == s[k..k + |Strip(s)|]
            && (forall i :: 0 <= i < k ==> IsSpace(s[i]))
            && (forall i :: k + |Strip(s)| <= i < |s| ==> IsSpace(s[i]))
  {
    var t := TrimStart(s);
    var r := Strip(s);
    var k := |s| - |t|;
    TrimStartRemovesSpace(s);
    TrimEndRemovesSpace(t);
    assert r == TrimEnd(t) == t[..|r|];
    assert t == s[k..];
    assert r == s[k..k + |r|];
    forall i | k + |r| <= i < |s|
      ensures IsSpace(s[i])
    {
      assert s[i] == t[i - k];
    }
    assert forall i :: 0 <= i < k ==> IsSpace(s[i]);
  }
}

=== FILE: traversal.dfy ===
/**
 * The traversal engine of `SelectolaxParser` (src/scrape_gpt/parser.py):
 * `conditional_traverse` and the walks layered on it, the upward
 * `check_parent` walk, the media-node traversal and the node counters.
 *
 * The generators of the source become methods that return the whole sequence
 * they would yield; each is proved equal to a specification function, and the
 * properties of the traversal are lemmas about those functions.
 */
module Traversal {
  import opened Common
  import opened Dom

  const HEADER_TAGS: seq<string> := ["h1", "h2", "h3", "h4", "h5", "h6"]

  /** The arguments of `conditional_traverse`; `ignoreNodes` holds the identities of the nodes to skip. */
  datatype Scope = Scope(
    start: Located,
    end: Option<NodeId>,
    includeText: bool,
    includeSelf: bool,
    tagConditions: seq<string>,
    ignoreTags: seq<string>,
    ignoreNodes: set<NodeId>,
    childrenOnly: bool)

  /** The library walk hides text nodes unless `include_text` is set (it does not prune: text nodes are leaves). */
  function Visible(includeText: bool): Located -> bool {
    (l: Located) => includeText || l.node.tag != TEXT_TAG
  }

  /** `start_node.traverse(include_text)` or, with `children_only`, `start_node.traverse_children(include_text)`. */
  function Walk(start: Located, includeText: bool, childrenOnly: bool): seq<Located> {
    Filter(if childrenOnly then ChildrenOf(start) else Subtree(start), Visible(includeText))
  }

  predicate IsEnd(l: Located, end: Option<NodeId>) {
    end.Some? && l.node.id == end.value
  }

  /** The part of the walk before the first visit of `end`: the longest prefix that does not contain it. */
  function UpTo(w: seq<Located>, end: Option<NodeId>): (r: seq<Located>)
    ensures r <= w
    ensures forall l :: l in r ==> !IsEnd(l, end)
    ensures |r| < |w| ==> IsEnd(w[|r|], end)
  {
    if w == [] || IsEnd(w[0], end) then [] else [w[0]] + UpTo(w[1..], end)
  }

  /** The test the loop of `conditional_traverse` applies to each walked node. */
  predicate Passes(l: Located, ignoreNodes: set<NodeId>, ignoreTags: seq<string>, tagConditions: seq<string>) {
    && l.node.id !in ignoreNodes
    && l.node.tag !in ignoreTags
    && (|tagConditions| == 0 || l.node.tag in tagConditions)
  }

  predicate Emits(l: Located, sc: Scope) {
    Passes(l, sc.ignoreNodes, sc.ignoreTags, sc.tagConditions)
  }

  /** `Emits` as a predicate value; it depends only on the three tests, not on the rest of the scope. */
  function Emitter(sc: Scope): Located -> bool {
    PassTest(sc.ignoreNodes, sc.ignoreTags, sc.tagConditions)
  }

  function PassTest(ignoreNodes: set<NodeId>, ignoreTags: seq<string>, tagConditions: seq<string>): Located -> bool {
    (l: Located) => Passes(l, ignoreNodes, ignoreTags, tagConditions)
  }

  /** What `conditional_traverse` yields before its loop: the start node, on the `include_self` test as written. */
  function SelfPart(sc: Scope): seq<Located> {
    if sc.includeSelf && sc.start.node.tag in sc.ignoreTags && sc.start.node.id !in sc.ignoreNodes
    then [sc.start] else []
  }

  /** What the loop of `conditional_traverse` yields. */
  function LoopPart(sc: Scope): seq<Located> {
    Filter(UpTo(Walk(sc.start, sc.includeText, sc.childrenOnly), sc.end), Emitter(sc))
  }

  /** Everything `conditional_traverse` yields, in order. */
  function Traversal(sc: Scope): seq<Located> {
    SelfPart(sc) + LoopPart(sc)
  }

  /** `conditional_traverse`: the generator, run to completion. */
  method ConditionalTraverse(sc: Scope) returns (out: seq<Located>)
    ensures out == Traversal(sc)
  {
    out := [];
    if sc.includeSelf && sc.start.node.tag in sc.ignoreTags && sc.start.node.id !in sc.ignoreNodes {
      out := [sc.start];
    }
    var walk := Walk(sc.start, sc.includeText, sc.childrenOnly);
    var yielded := ScanWalk(walk, sc);
    out := out + yielded;
  }

  /** The loop of `conditional_traverse` over the library walk `walk`. */
  method ScanWalk(walk: seq<Located>, sc: Scope) returns (out: seq<Located>)
    ensures out == Filter(UpTo(walk, sc.end), Emitter(sc))
  {
    out := [];
    var i := 0;
    while i < |walk|
      invariant 0 <= i <= |walk|
      invariant forall j :: 0 <= j < i ==> !IsEnd(walk[j], sc.end)
      invariant out == Filter(walk[..i], Emitter(sc))
    {
      var node := walk[i];
      if sc.end.Some? && node.node.id == sc.end.value {
        break;
      }
      var tag := node.node.tag;
      if node.node.id !in sc.ignoreNodes && tag !in sc.ignoreTags {
        if |sc.tagConditions| == 0 {
          out := out + [node];
        } else if tag in sc.tagConditions {
          out := out + [node];
        }
      }
      FilterStep(walk, i, Emitter(sc));
      i := i + 1;
    }
    UpToAt(walk, i, sc.end);
  }

  /** The prefix before the first visit of `end` is the one whose length is that visit's position. */
  lemma {:induction false} UpToAt(w: seq<Located>, i: nat, end: Option<NodeId>)
    requires i <= |w|
    requires forall j :: 0 <= j < i ==> !IsEnd(w[j], end)
    requires i < |w| ==> IsEnd(w[i], end)
    ensures UpTo(w, end) == w[..i]
  {
    if i > 0 {
      UpToAt(w[1..], i - 1, end);
      assert [w[0]] + w[1..][..i - 1] == w[..i];
    }
  }

  /**
   * Range bound: the loop yields an order-preserving subsequence of the walk
   * prefix that ends just before the first visit of `end`; it never yields
   * `end` itself, and the walk stops exactly there.
   */
  lemma LoopStopsAtEnd(sc: Scope)
    ensures var w := Walk(sc.start, sc.includeText, sc.childrenOnly);
            var p := UpTo(w, sc.end);
            && p <= w
            && IsSubsequence(LoopPart(sc), p)
            && (forall l :: l in LoopPart(sc) ==> !IsEnd(l, sc.end))
            && (|p| < |w| ==> IsEnd(w[|p|], sc.end))
  {
    var p := UpTo(Walk(sc.start, sc.includeText, sc.childrenOnly), sc.end);
    FilterIsSubsequence(p, Emitter(sc));
    FilterMembers(p, Emitter(sc));
  }

  /** Without an end node the loop sees the whole walk. */
  lemma UpToNoEnd(w: seq<Located>)
    ensures UpTo(w, None) == w
  {
  }

  /**
   * A walked node is yielded by the loop exactly when it is not an ignored
   * node, its tag is not an ignored tag, and the tag conditions are empty or
   * contain its tag.
   */
  lemma LoopMembership(sc: Scope, l: Located)
    ensures l in LoopPart(sc) <==>
      && l in UpTo(Walk(sc.start, sc.includeText, sc.childrenOnly), sc.end)
      && l.node.id !in sc.ignoreNodes
      && l.node.tag !in sc.ignoreTags
      && (sc.tagConditions == [] || l.node.tag in sc.tagConditions)
  {
    FilterMembers(UpTo(Walk(sc.start, sc.includeText, sc.childrenOnly), sc.end), Emitter(sc));
  }

  /**
   * Ignoring a node suppresses that node only: each of its children is still
   * walked and yielded when it passes the tests itself.
   */
  lemma IgnoredNodeKeepsChildren(sc: Scope, p: Located, c: Node)
    requires !sc.childrenOnly && sc.end.None?
    requires p in Subtree(sc.start) && p.node.id in sc.ignoreNodes
    requires c in p.node.children && (sc.includeText || c.tag != TEXT_TAG)
    requires Emits(ChildAt(p, c), sc)
    ensures p !in LoopPart(sc)
    ensures ChildAt(p, c) in LoopPart(sc)
  {
    ChildInSubtree(sc.start, p, c);
    UpToNoEnd(Walk(sc.start, sc.includeText, false));
    FilterMembers(Subtree(sc.start), Visible(sc.includeText));
    LoopMembership(sc, p);
    LoopMembership(sc, ChildAt(p, c));
  }

  /**
   * The two tag lists are separate tests, not one mode flag: over the same walk,
   * `tag_conditions = T` and `ignore_tags = T` yield disjoint sets of nodes that
   * together cover every walked node that is not ignored, provided T is not
   * empty.  With an empty T both yield every such node.
   */
  lemma TagListsPartition(start: Located, end: Option<NodeId>, includeText: bool, includeSelf: bool,
                          childrenOnly: bool, tags: seq<string>, ignoreNodes: set<NodeId>, l: Located)
    requires l in UpTo(Walk(start, includeText, childrenOnly), end) && l.node.id !in ignoreNodes
    ensures var only := Scope(start, end, includeText, includeSelf, tags, [], ignoreNodes, childrenOnly);
            var except := Scope(start, end, includeText, includeSelf, [], tags, ignoreNodes, childrenOnly);
            && (tags != [] ==> (l in LoopPart(only) <==> l !in LoopPart(except)))
            && (tags == [] ==> l in LoopPart(only) && l in LoopPart(except))
  {
    LoopMembership(Scope(start, end, includeText, includeSelf, tags, [], ignoreNodes, childrenOnly), l);
    LoopMembership(Scope(start, end, includeText, includeSelf, [], tags, ignoreNodes, childrenOnly), l);
  }

  /**
   * Over whole traversals the two tag lists still partition the walked nodes,
   * as long as the start node is not pre-yielded under `ignore_tags = T`.
   */
  lemma TraversalTagListsPartition(start: Located, end: Option<NodeId>, includeText: bool, includeSelf: bool,
                                   childrenOnly: bool, tags: seq<string>, ignoreNodes: set<NodeId>, l: Located)
    requires l in UpTo(Walk(start, includeText, childrenOnly), end) && l.node.id !in ignoreNodes
    requires !includeSelf || start.node.tag !in tags
    ensures var only := Scope(start, end, includeText, includeSelf, tags, [], ignoreNodes, childrenOnly);
            var except := Scope(start, end, includeText, includeSelf, [], tags, ignoreNodes, childrenOnly);
            && (tags != [] ==> (l in Traversal(only) <==> l !in Traversal(except)))
            && (tags == [] ==> l in Traversal(only) && l in Traversal(except))
  {
    TagListsPartition(start, end, includeText, includeSelf, childrenOnly, tags, ignoreNodes, l);
  }

  /**
   * The exception: with `include_self` and a start tag in T, the start node is
   * pre-yielded under `ignore_tags = T` and yielded by the loop under
   * `tag_conditions = T`, so it is in both traversals.
   */
  lemma TagListsOverlapAtStart(start: Located, end: Option<NodeId>, includeText: bool, childrenOnly: bool,
                               tags: seq<string>, ignoreNodes: set<NodeId>)
    requires start.node.tag in tags && start.node.id !in ignoreNodes
    requires start in UpTo(Walk(start, includeText, childrenOnly), end)
    ensures start in Traversal(Scope(start, end, includeText, true, tags, [], ignoreNodes, childrenOnly))
    ensures start in Traversal(Scope(start, end, includeText, true, [], tags, ignoreNodes, childrenOnly))
  {
    LoopMembership(Scope(start, end, includeText, true, tags, [], ignoreNodes, childrenOnly), start);
  }

  /**
   * The pre-yield does not look at `end_node`: a traversal yields the end node
   * exactly when the start node is the end node and is pre-yielded; the loop
   * never does.
   */
  lemma EndOnlyFromSelf(sc: Scope, l: Located)
    ensures l in Traversal(sc) && IsEnd(l, sc.end) <==> SelfPart(sc) != [] && IsEnd(sc.start, sc.end) && l == sc.start
  {
    FilterMembers(UpTo(Walk(sc.start, sc.includeText, sc.childrenOnly), sc.end), Emitter(sc));
  }

  /**
   * The `include_self` test as written: the start node is yielded ahead of the
   * loop only when its tag is one of the ignored tags and it is not an ignored
   * node; with no ignored tags, `include_self` changes nothing.
   */
  lemma IncludeSelfRule(sc: Scope)
    ensures |SelfPart(sc)| <= 1
    ensures SelfPart(sc) != [] <==>
      sc.includeSelf && sc.start.node.tag in sc.ignoreTags && sc.start.node.id !in sc.ignoreNodes
    ensures SelfPart(sc) != [] ==> Traversal(sc)[0] == sc.start
    ensures sc.ignoreTags == [] ==> Traversal(sc) == LoopPart(sc)
    ensures sc.ignoreTags == [] ==> Traversal(sc.(includeSelf := false)) == LoopPart(sc)
  {
  }

  /** With no ignored tags and some tag conditions, every yielded node carries one of the listed tags. */
  lemma TraversalKeepsConditionTags(sc: Scope)
    requires sc.ignoreTags == [] && sc.tagConditions != []
    ensures Traversal(sc) == LoopPart(sc)
    ensures forall l :: l in Traversal(sc) ==> l.node.tag in sc.tagConditions && l.node.id !in sc.ignoreNodes
  {
    FilterMembers(UpTo(Walk(sc.start, sc.includeText, sc.childrenOnly), sc.end), Emitter(sc));
  }

  /**
   * `filtered_traverse`: `conditional_traverse` with text included and the
   * caller's predicate applied on top.  As written it does not forward
   * `ignore_tags`, so the inner traversal always runs with no ignored tags.
   */
  method FilteredTraverse(start: Located, filter: Located -> bool, end: Option<NodeId>, includeSelf: bool,
                          tagConditions: seq<string>, ignoreTags: seq<string>, ignoreNodes: set<NodeId>,
                          childrenOnly: bool)
    returns (out: seq<Located>)
    ensures out == Filter(Traversal(Scope(start, end, true, includeSelf, tagConditions, [], ignoreNodes, childrenOnly)), filter)
  {
    var inner := ConditionalTraverse(Scope(start, end, true, includeSelf, tagConditions, [], ignoreNodes, childrenOnly));
    out := KeepFiltered(inner, filter);
  }

  /** The loop of `filtered_traverse` over the nodes the inner traversal yields. */
  method KeepFiltered(inner: seq<Located>, filter: Located -> bool) returns (out: seq<Located>)
    ensures out == Filter(inner, filter)
  {
    out := [];
    var i := 0;
    while i < |inner|
      invariant 0 <= i <= |inner|
      invariant out == Filter(inner[..i], filter)
    {
      var node := inner[i];
      if filter(node) {
        out := out + [node];
      }
      FilterStep(inner, i, filter);
      i := i + 1;
    }
    assert inner[..i] == inner;
  }

  /**
   * What `filtered_traverse` yields: an order-preserving subsequence of the
   * walk prefix before `end`, holding exactly the walked nodes that pass both
   * the scope test and the predicate.
   */
  lemma FilteredTraversal(sc: Scope, f: Located -> bool)
    requires sc.ignoreTags == []
    ensures var p := UpTo(Walk(sc.start, sc.includeText, sc.childrenOnly), sc.end);
            var out := Filter(Traversal(sc), f);
            && IsSubsequence(out, p)
            && forall l :: l in out <==> l in p && Emits(l, sc) && f(l)
  {
    var p := UpTo(Walk(sc.start, sc.includeText, sc.childrenOnly), sc.end);
    assert Traversal(sc) == LoopPart(sc);
    FilterIsSubsequence(LoopPart(sc), f);
    FilterIsSubsequence(p, Emitter(sc));
    SubsequenceTransitive(Filter(LoopPart(sc), f), LoopPart(sc), p);
    FilterMembers(LoopPart(sc), f);
    FilterMembers(p, Emitter(sc));
  }

  /** The scope `traverse_text_nodes` (or, with `childrenOnly`, `traverse_text_child_nodes`) hands to `conditional_traverse`. */
  function TextScope(start: Located, end: Option<NodeId>, includeSelf: bool, ignoreNodes: set<NodeId>, childrenOnly: bool): Scope {
    Scope(start, end, true, includeSelf, [TEXT_TAG], [], ignoreNodes, childrenOnly)
  }

  /**
   * `traverse_text_nodes` (and `get_text_nodes`, which lists it): the text
   * nodes of the walk before `end`, minus the ignored ones; `include_self`
   * never adds anything, because no tag is ignored.
   */
  method TraverseTextNodes(start: Located, end: Option<NodeId>, includeSelf: bool, ignoreNodes: set<NodeId>)
    returns (out: seq<Located>)
    ensures out == Traversal(TextScope(start, end, includeSelf, ignoreNodes, false))
  {
    out := ConditionalTraverse(TextScope(start, end, includeSelf, ignoreNodes, false));
  }

  /** `traverse_text_child_nodes` (and `get_text_child_nodes`): the same, over the direct children of `start` only. */
  method TraverseTextChildNodes(start: Located, end: Option<NodeId>, includeSelf: bool, ignoreNodes: set<NodeId>)
    returns (out: seq<Located>)
    ensures out == Traversal(TextScope(start, end, includeSelf, ignoreNodes, true))
  {
    out := ConditionalTraverse(TextScope(start, end, includeSelf, ignoreNodes, true));
  }

  /** A text traversal yields exactly the text nodes of the walk before `end` that are not ignored. */
  lemma TextTraversalMembers(start: Located, end: Option<NodeId>, includeSelf: bool, ignoreNodes: set<NodeId>,
                             childrenOnly: bool, l: Located)
    ensures l in Traversal(TextScope(start, end, includeSelf, ignoreNodes, childrenOnly)) <==>
      l in UpTo(if childrenOnly then ChildrenOf(start) else Subtree(start), end) && IsText(l) && l.node.id !in ignoreNodes
  {
    var sc := TextScope(start, end, includeSelf, ignoreNodes, childrenOnly);
    FilterAll(Subtree(start), Visible(true));
    FilterAll(ChildrenOf(start), Visible(true));
    LoopMembership(sc, l);
  }

  /** A text traversal yields at most as many nodes as the subtree of its start has text nodes. */
  lemma TextTraversalBound(start: Located, end: Option<NodeId>, includeSelf: bool, ignoreNodes: set<NodeId>)
    ensures |Traversal(TextScope(start, end, includeSelf, ignoreNodes, false))| <= TextCount(start.node)
  {
    var sc := TextScope(start, end, includeSelf, ignoreNodes, false);
    FilterAll(Subtree(start), Visible(true));
    var p := UpTo(Subtree(start), end);
    FilterPrefixLength(p, Subtree(start), Emitter(sc));
    FilterWeaker(Subtree(start), Emitter(sc), IsText);
    SubtreeTextCount(start);
  }

  /**
   * `traverse_partial_tree` / `traverse_partial_child_tree`: with no lists,
   * the traversal is the walk itself up to `end`; `include_self` has no
   * effect, since the start node is yielded ahead of the walk only when its
   * tag is an ignored tag.
   */
  method TraversePartialTree(start: Located, end: Option<NodeId>, includeText: bool, includeSelf: bool, childrenOnly: bool)
    returns (out: seq<Located>)
    ensures out == UpTo(Walk(start, includeText, childrenOnly), end)
  {
    var sc := Scope(start, end, includeText, includeSelf, [], [], {}, childrenOnly);
    out := ConditionalTraverse(sc);
    FilterAll(UpTo(Walk(start, includeText, childrenOnly), end), Emitter(sc));
  }

  /** One step of `check_parent`: the ancestor is a marker node, or the tag test (`ignore_tags ^ tag in tags`) fires. */
  predicate Marked(a: Node, checkNodes: set<NodeId>, tags: seq<string>, ignoreTags: bool) {
    a.id in checkNodes || ignoreTags != (a.tag in tags)
  }

  predicate HasMarkedAncestor(l: Located, checkNodes: set<NodeId>, tags: seq<string>, ignoreTags: bool) {
    exists i :: 0 <= i < |l.ancestors| && Marked(l.ancestors[i], checkNodes, tags, ignoreTags)
  }

  /** `check_parent`: walk the parent links up to the root and report whether some ancestor is marked. */
  method CheckParent(l: Located, checkNodes: set<NodeId>, tags: seq<string>, ignoreTags: bool) returns (found: bool)
    ensures found == HasMarkedAncestor(l, checkNodes, tags, ignoreTags)
  {
    var i := 0;
    while i < |l.ancestors|
      invariant 0 <= i <= |l.ancestors|
      invariant forall j :: 0 <= j < i ==> !Marked(l.ancestors[j], checkNodes, tags, ignoreTags)
    {
      var parent := l.ancestors[i];
      if parent.id in checkNodes {
        return true;
      }
      if ignoreTags != (parent.tag in tags) {
        return true;
      }
      i := i + 1;
    }
    return false;
  }

  /**
   * The cases of `check_parent`: a parentless node is never marked; in tag mode
   * (`ignore_tags = False`) a node is marked exactly when some strict ancestor is
   * a marker node or carries a listed tag; with the defaults (`ignore_tags =
   * True`, no tags) every node that has a parent is marked.
   */
  lemma CheckParentCases(l: Located, checkNodes: set<NodeId>, tags: seq<string>)
    ensures l.ancestors == [] ==> !HasMarkedAncestor(l, checkNodes, tags, false)
    ensures l.ancestors == [] ==> !HasMarkedAncestor(l, checkNodes, tags, true)
    ensures HasMarkedAncestor(l, checkNodes, tags, false) <==>
      exists i :: 0 <= i < |l.ancestors| && (l.ancestors[i].id in checkNodes || l.ancestors[i].tag in tags)
    ensures HasMarkedAncestor(l, {}, [], true) <==> l.ancestors != []
  {
    if l.ancestors != [] {
      assert Marked(l.ancestors[0], {}, [], true);
    }
  }

  /** The tags `traverse_media_nodes` asks for: media and text, plus headings unless they are read as text. */
  function MediaTags(headingsAsText: bool): seq<string> {
    ["img", "svg", TEXT_TAG] + (if headingsAsText then [] else HEADER_TAGS)
  }

  /** `_media_filter` (defined in the source but not called by it). */
  function MediaFilter(l: Located, ignoreNodes: set<NodeId>, headingsAsText: bool): (r: bool)
    ensures r <==> l.node.id !in ignoreNodes && l.node.tag in MediaTags(headingsAsText)
  {
    if l.node.id in ignoreNodes then false
    else if !headingsAsText && l.node.tag in HEADER_TAGS then true
    else l.node.tag in ["img", "svg", TEXT_TAG]
  }

  /** The predicate `traverse_media_nodes` hands to `filtered_traverse`: no ancestor is a heading. */
  predicate NotUnderHeading(l: Located) {
    !HasMarkedAncestor(l, {}, HEADER_TAGS, false)
  }

  function MediaScope(start: Located, end: Option<NodeId>, includeSelf: bool, ignoreNodes: set<NodeId>,
                      headingsAsText: bool, childrenOnly: bool): Scope {
    Scope(start, end, true, includeSelf, MediaTags(headingsAsText), [], ignoreNodes, childrenOnly)
  }

  /** `traverse_media_nodes`. */
  method TraverseMediaNodes(start: Located, end: Option<NodeId>, includeSelf: bool, ignoreNodes: set<NodeId>,
                            headingsAsText: bool, childrenOnly: bool)
    returns (out: seq<Located>)
    ensures out == Filter(Traversal(MediaScope(start, end, includeSelf, ignoreNodes, headingsAsText, childrenOnly)), NotUnderHeading)
  {
    var tagConditions := ["img", "svg", TEXT_TAG];
    if !headingsAsText {
      tagConditions := tagConditions + HEADER_TAGS;
    }
    assert tagConditions == MediaTags(headingsAsText);
    out := FilteredTraverse(start, NotUnderHeading, end, includeSelf, tagConditions, [], ignoreNodes, childrenOnly);
  }

  /**
   * What `traverse_media_nodes` yields, in walk order: exactly the walked nodes
   * before `end` that are not ignored, carry a media tag (img, svg, text, and
   * h1-h6 unless headings are read as text) and have no heading ancestor.  The
   * heading veto applies whatever `headings_as_text` is, and every yielded node
   * passes `_media_filter`.
   */
  lemma MediaNodes(start: Located, end: Option<NodeId>, includeSelf: bool, ignoreNodes: set<NodeId>,
                   headingsAsText: bool, childrenOnly: bool)
    ensures var sc := MediaScope(start, end, includeSelf, ignoreNodes, headingsAsText, childrenOnly);
            var out := Filter(Traversal(sc), NotUnderHeading);
            var p := UpTo(Walk(start, true, childrenOnly), end);
            && IsSubsequence(out, p)
            && (forall l :: l in out <==>
                 l in p && l.node.id !in ignoreNodes && l.node.tag in MediaTags(headingsAsText) &&
                 forall a :: a in l.ancestors ==> a.tag !in HEADER_TAGS)
            && (forall l :: l in out ==> MediaFilter(l, ignoreNodes, headingsAsText))
  {
    var sc := MediaScope(start, end, includeSelf, ignoreNodes, headingsAsText, childrenOnly);
    FilteredTraversal(sc, NotUnderHeading);
    forall l: Located
      ensures NotUnderHeading(l) <==> forall a :: a in l.ancestors ==> a.tag !in HEADER_TAGS
    {
      if !NotUnderHeading(l) {
        var i :| 0 <= i < |l.ancestors| && Marked(l.ancestors[i], {}, HEADER_TAGS, false);
        assert l.ancestors[i] in l.ancestors;
      }
    }
  }

  /** `count_all_nodes`: the number of nodes and of text nodes in the document. */
  method CountAllNodes(root: Node) returns (nodeCount: nat, textCount: nat)
    ensures nodeCount == Size(root)
    ensures textCount == TextCount(root)
    ensures textCount <= nodeCount
  {
    var walk := Walk(Located(root, []), true, false);
    FilterAll(Subtree(Located(root, [])), Visible(true));
    nodeCount, textCount := 0, 0;
    var i := 0;
    while i < |walk|
      invariant 0 <= i <= |walk|
      invariant nodeCount == i
      invariant textCount == |Filter(walk[..i], IsText)|
    {
      var node := walk[i];
      nodeCount := nodeCount + 1;
      if node.node.tag == TEXT_TAG {
        textCount := textCount + 1;
      }
      FilterStep(walk, i, IsText);
      i := i + 1;
    }
    assert walk[..i] == walk;
    SubtreeTextCount(Located(root, []));
  }

  predicate IsTextNode(n: Node) {
    n.tag == TEXT_TAG
  }

  /** `count_child_nodes`: the number of direct children of `start` and of those that are text nodes. */
  method CountChildNodes(start: Node) returns (nodeCount: nat, textCount: nat)
    ensures nodeCount == |start.children|
    ensures textCount == |Filter(start.children, IsTextNode)|
  {
    var children := start.children;
    nodeCount, textCount := 0, 0;
    var i := 0;
    while i < |children|
      invariant 0 <= i <= |children|
      invariant nodeCount == i
      invariant textCount == |Filter(children[..i], IsTextNode)|
    {
      nodeCount := nodeCount + 1;
      if children[i].tag == TEXT_TAG {
        textCount := textCount + 1;
      }
      assert children[..i + 1] == children[..i] + [children[i]];
      FilterAppend(children[..i], [children[i]], IsTextNode);
      i := i + 1;
    }
    assert children[..i] == children;
  }
}
